=== FILE: README.md ===
# redshift-gtk status icon: a Dafny model of its child-process core

`redshift-gtk` runs `redshift -v` as a child process and shows its state in
a tray icon. The class `RedshiftStatusIcon` in
`src/redshift-gtk/statusicon.py` does not read the display or the
colour ramps itself. It learns everything from the lines the child prints,
`Status: Enabled`, `Color temperature: 5500K`, `Period: Night` and
`Location: 48.10, 11.58`, and it steers the child only by sending it
`SIGUSR1`. This project models that core and proves its properties:

- **Launch** (`launch.dfy`): the child's argument vector is
  `<BINDIR>/redshift`, then `-v` unless the user already passed one, then
  the user's arguments. The child's environment is a copy of the parent's
  with `LANG`, `LANGUAGE`, `LC_ALL` and `LC_MESSAGES` set to `C`, passed as
  `key=value` strings. Python's insertion-ordered dictionary is an
  association list.
- **Line reassembly** (`lines.dfy`, `statusicon.dfy`): `child_data_cb`
  appends each chunk read from a pipe to that pipe's buffer and cuts the
  buffer at every newline. Complete stdout lines go to the decoder, and
  complete stderr lines are collected, with their newlines, into the error
  text. The unterminated tail stays buffered.
- **Protocol decoding** (`protocol.dfy`, with `pystr.dfy` and `pyint.dfy`
  for the Python string and integer built-ins the decoder uses):
  - `child_stdout_line_cb` recognises `KEY: VALUE` exactly as
    `re.match(r'([\w ]+): (.+)', line)` does;
  - `child_key_change_cb` dispatches the four known keys: `rstrip('K')`
    then `int(…, 10)` for the temperature, and `split(', ')` for the
    location.
- **State store** (`statestore.dfy`): the initial values and the four
  setters with `is_enabled`.
- **Suspend and toggle** (`control.dfy`): toggling sends `SIGUSR1` and
  never writes the recorded status. Suspending keeps at most one pending
  re-enable timer. Event-loop timer sources are modelled as a set of live
  source ids plus the id the loop hands out next.
- **Exit** (`statusicon.dfy`): `child_cb` quits on a clean exit. Any other
  exit shows the collected error text and leaves with `sys.exit(-1)`,
  which is exit status 255.
- **Session** (`session.dfy`): the event loop dispatching any sequence of
  callbacks, and the invariants that hold over every run. `Session.Step`
  fires the suspend timer with the corrected `Control.TimerFires`, which
  clears `suspend_timer` (see "## Findings"). So `Session.Run` is the
  program with that fix applied. The firing as written is
  `Control.TimerFiresAsWritten`, and its stale slot is shown one step at a
  time by `Control.StaleTimerAfterFiring`.

Modelling choices:

- Exceptions are values. A stdout line whose temperature `int()` rejects,
  or a location report with fewer than two parts, raises out of
  `child_data_cb`.
  - In that case the model stops at the raising line and leaves the later
    lines in the buffer, as the source does: the buffer was already
    advanced past the raising line before the callback ran.
  - The event loop then drops the stdout watch.
- A location report is recorded before its label is formatted. So
  `Location: x` with no `", "` stores `['x']` and then raises.

## Model

| member | source | states |
|---|---|---|
| `StateStore.Initial` | src/redshift-gtk/statusicon.py:56-59 | a fresh icon is disabled, at temperature 0, in period "Unknown", at the origin |
| `StateStore.ChangeStatus` | src/redshift-gtk/statusicon.py:291-293 | the status becomes the argument and no other field changes |
| `StateStore.ChangeTemperature` | src/redshift-gtk/statusicon.py:300-302 | the temperature becomes the argument and no other field changes |
| `StateStore.ChangePeriod` | src/redshift-gtk/statusicon.py:305-307 | the period becomes the argument and no other field changes |
| `StateStore.ChangeLocation` | src/redshift-gtk/statusicon.py:310-312 | the location becomes the argument and no other field changes |
| `StateStore.IsEnabled` | src/redshift-gtk/statusicon.py:316-318 | the `is_enabled` getter returns the recorded status; what it reads back is stated by `StateStore.ChangeStatus`, `StateStore.Initial` and the write-back law in `StateStore.SetterLaws` |
| `StateStore.SetterLaws` | src/redshift-gtk/statusicon.py:291-318 | a second write of a field overwrites the first; writes to different fields commute; writing back `is_enabled()` changes nothing |
| `PyStr.Partition` | src/redshift-gtk/statusicon.py:391 | `partition('\n')`: without a newline, the whole text and two empty strings; otherwise the text before the first newline, the newline, and the rest, which glue back to the input |
| `PyStr.PartitionAt` | src/redshift-gtk/statusicon.py:391 | partitioning `a + "\n" + b` with no newline in `a` returns exactly `(a, "\n", b)` |
| `PyStr.Split` | src/redshift-gtk/statusicon.py:372 | `split(', ')` returns at least one part, no part contains the separator, and joining the parts with it gives the input back |
| `PyStr.SplitJoinCommaSpace` | src/redshift-gtk/statusicon.py:372 | the reverse round trip: parts without `", "` come back from splitting their join unchanged |
| `PyStr.RStrip` | src/redshift-gtk/statusicon.py:368 | `rstrip('K')` returns a prefix of the input, removes only `K`s, and leaves no trailing `K` |
| `PyStr.RStripPadding` | src/redshift-gtk/statusicon.py:368 | stripping any number of appended `K`s from a text not ending in `K` gives that text back |
| `PyInt.ParseIntRoundTrip` | src/redshift-gtk/statusicon.py:368 | `int(s, 10)` reads the decimal text of any integer back to that integer, with any surrounding ASCII white space |
| `PyInt.ParseInt` | src/redshift-gtk/statusicon.py:368 | `int(s, 10)` with `None` for the `ValueError`; what it accepts and returns is stated by `PyInt.ParseIntIff` |
| `PyInt.ParseIntComplete` | src/redshift-gtk/statusicon.py:368 | every spelling is accepted with the value it spells: white space, an optional `+` or `-`, digits with single underscores between digits, white space; `" +045 "` is 45 and `"4_500"` is 4500 |
| `PyInt.ParseIntSound` | src/redshift-gtk/statusicon.py:368 | whatever `int(s, 10)` accepts is such a spelling of the value it returns |
| `PyInt.ParseIntIff` | src/redshift-gtk/statusicon.py:368 | `int(s, 10)` returns `n` if and only if `s` spells `n` |
| `PyInt.AcceptedHasDigit` | src/redshift-gtk/statusicon.py:368 | whatever `int(s, 10)` accepts holds at least one ASCII digit |
| `PyInt.DecimalSpelling` | src/redshift-gtk/statusicon.py:368 | `str(n)` between runs of white space is a spelling of `n`: a minus sign exactly for negative `n`, then the digits of its magnitude |
| `PyInt.NoDigitNoInt` | src/redshift-gtk/statusicon.py:368 | `int(s, 10)` rejects a text with no digit in it |
| `Lines.SplitLines` | src/redshift-gtk/statusicon.py:390-394 | the lines, each with its newline restored, followed by the remainder give back the buffer; neither the lines nor the remainder hold a newline |
| `Lines.SplitJoined` | src/redshift-gtk/statusicon.py:390-394 | conversely, newline-free lines and remainder are exactly what splitting their joined text returns, so the split is unique |
| `Lines.JoinedFirst` | src/redshift-gtk/statusicon.py:391-394 | one partition of joined lines yields the first line and leaves the joined text of the others |
| `Lines.ChunkIndependence` | src/redshift-gtk/statusicon.py:387-394 | splitting after two reads gives the same lines, in order, and the same remainder as splitting the concatenated text once |
| `Protocol.KeyRun` | src/redshift-gtk/statusicon.py:377 | the greedy `[\w ]+` run: every character inside it is a key character and the next one is not |
| `Protocol.LineRun` | src/redshift-gtk/statusicon.py:377 | the greedy `.+` run: no newline inside it, and it stops at a newline or at the end |
| `Protocol.Match` | src/redshift-gtk/statusicon.py:377-380 | a match yields a key of key characters and a non-empty, newline-free value, and `key + ": " + value` is a prefix of the line |
| `Protocol.MatchIff` | src/redshift-gtk/statusicon.py:376-381 | on a newline-free line the match is `(k, v)` if and only if the line is `k + ": " + v`, with `k` made of key characters and `v` non-empty |
| `Protocol.ApplyKey` | src/redshift-gtk/statusicon.py:363-372 | each key writes only its own field, an unknown key writes none, and only the temperature and location keys can raise |
| `Protocol.HandleLine` | src/redshift-gtk/statusicon.py:374-381 | `child_stdout_line_cb`; its effects are stated by `Protocol.HandleLineEffects`, and per key by `Protocol.StatusReport`, `Protocol.PeriodReport`, `Protocol.SpelledTemperatureReport` and `Protocol.LocationReport` |
| `Protocol.HandleLineEffects` | src/redshift-gtk/statusicon.py:374-381 | only a line that matches `KEY: VALUE` can change the state or raise, and only temperature and location reports raise |
| `Protocol.IgnoredLines` | src/redshift-gtk/statusicon.py:374-381 | an empty line, a non-matching line, or a line with an unknown key leaves the state alone and raises nothing |
| `Protocol.NoKeyIgnored` | src/redshift-gtk/statusicon.py:376-378 | a line not starting with a key character is ignored |
| `Protocol.StatusReport` | src/redshift-gtk/statusicon.py:365-366 | `Status: v` records `v != "Disabled"` and nothing else |
| `Protocol.PeriodReport` | src/redshift-gtk/statusicon.py:369-370 | `Period: v` records `v` and nothing else |
| `Protocol.Temperature` | src/redshift-gtk/statusicon.py:368 | `int(value.rstrip('K'), 10)`; what it accepts and rejects is stated by `Protocol.SpelledTemperature`, `Protocol.SpelledTemperatureReport` and `Protocol.BadTemperatureReport` |
| `Protocol.TemperatureReport` | src/redshift-gtk/statusicon.py:367-368 | `Color temperature: <n>` followed by any number of `K`s, and with white space around the number, records `n` and nothing else |
| `Protocol.SpelledTemperatureReport` | src/redshift-gtk/statusicon.py:367-368 | `Color temperature: ` followed by any spelling `int()` accepts and any number of `K`s records the spelled value and nothing else |
| `Protocol.SpelledTemperature` | src/redshift-gtk/statusicon.py:368 | a spelling followed by any number of `K`s is a newline-free value that `int(value.rstrip('K'), 10)` reads as the spelled number |
| `Protocol.BadTemperatureReport` | src/redshift-gtk/statusicon.py:367-368 | every other temperature value, one whose text before the trailing `K`s spells no number, raises and leaves the state unchanged |
| `Protocol.LocationReport` | src/redshift-gtk/statusicon.py:371-372 | `Location:` with parts joined by `", "` records those parts; fewer than two parts raise after recording them |
| `Protocol.ApplyLines` | src/redshift-gtk/statusicon.py:390-396 | the lines are handled in order up to the first that raises; without an exception every line is consumed |
| `Protocol.ApplyLinesAppend` | src/redshift-gtk/statusicon.py:390-396 | handling `xs + ys` is handling `xs` then, unless `xs` raised, `ys` |
| `Protocol.RaisedIgnoresRest` | src/redshift-gtk/statusicon.py:390-396 | once a line raised, the lines after it are never handled |
| `Protocol.RaisedPrefix` | src/redshift-gtk/statusicon.py:390-396 | when a prefix of the lines raised, handling all the lines ends exactly as handling that prefix |
| `Protocol.ApplyLinesStopsAt` | src/redshift-gtk/statusicon.py:390-396 | the first line that raises is the last one handled |
| `StatusIcon.Init` | src/redshift-gtk/statusicon.py:170-181 | a fresh icon has the initial reading, empty buffers and error text, no suspend timer and no live timer source |
| `StatusIcon.Feed` | src/redshift-gtk/statusicon.py:383-400 | a stderr read never raises and leaves the recorded state and the stdout buffer alone; a stdout read leaves the error text and the stderr buffer alone; the routing itself is stated by `StatusIcon.StderrRouting` and `StatusIcon.StdoutRouting` |
| `StatusIcon.StderrRouting` | src/redshift-gtk/statusicon.py:383-398 | a stderr chunk never reaches the decoder or raises; complete lines join the error text with their newlines; error text plus buffer grows by exactly the chunk |
| `StatusIcon.StdoutRouting` | src/redshift-gtk/statusicon.py:383-396 | a stdout chunk leaves the error text alone; the lines handed to the decoder followed by the new buffer are the old buffer plus the chunk |
| `StatusIcon.ChildDataCb` | src/redshift-gtk/statusicon.py:383-400 | the partition loop, as written, ends in the state and with the exception that reading whole lines then routing them describes |
| `StatusIcon.FeedTwice` | src/redshift-gtk/statusicon.py:383-400 | chunking does not matter: two reads without an exception end where one read of both chunks ends |
| `StatusIcon.Classify` | src/redshift-gtk/statusicon.py:348-361 | the main loop quits exactly when the child exited normally with code 0; otherwise the dialog shows the error text and the exit status is non-zero |
| `StatusIcon.ChildExitedAsWritten` | src/redshift-gtk/statusicon.py:335-361 | as written, it quits if and only if the exit is clean; otherwise the failure report shows the collected lines plus the drained text, and the exit status is 255 |
| `StatusIcon.ChildExited` | src/redshift-gtk/statusicon.py:335-361 | corrected, the failure report also holds the buffered stderr fragment; it quits if and only if the exit is clean |
| `Control.ChildToggleStatus` | src/redshift-gtk/statusicon.py:331-333 | one more `SIGUSR1` is sent and nothing else changes |
| `Control.RemoveSuspendTimer` | src/redshift-gtk/statusicon.py:215-219 | the slot is cleared and only its own source leaves the event loop |
| `Control.SuspendCb` | src/redshift-gtk/statusicon.py:221-236 | a toggle is sent only if enabled; the recorded state is unchanged; the old timer is removed and one new timer is due `minutes * 60` seconds later |
| `Control.ReenableCb` | src/redshift-gtk/statusicon.py:238-241 | a toggle is sent exactly when the recorded state is disabled |
| `Control.TimerFiresAsWritten` | src/redshift-gtk/statusicon.py:236-241 | as written, firing leaves `suspend_timer` holding the id |
| `Control.TimerFires` | src/redshift-gtk/statusicon.py:236-241 | corrected, firing clears the slot, keeps the slot in step with the live sources, and toggles only if disabled |
| `Control.ToggleCb` | src/redshift-gtk/statusicon.py:249-252 | any pending timer is removed and exactly one toggle is sent; the recorded state is unchanged |
| `Control.ToggleItemCb` | src/redshift-gtk/statusicon.py:254-262 | it acts as `toggle_cb` exactly when the item's state differs from the recorded one, and does nothing otherwise |
| `Control.SuspendReplaces` | src/redshift-gtk/statusicon.py:231-236 | after two suspends only the second timer is live, due at its own deadline |
| `Control.SuspendWhileDisabled` | src/redshift-gtk/statusicon.py:224-241 | suspending while disabled sends nothing now; the timer re-enables only if still disabled when it fires |
| `Control.ToggleTwice` | src/redshift-gtk/statusicon.py:249-252 | two toggles send two requests and leave the recorded state alone |
| `Control.ItemEchoIsQuiet` | src/redshift-gtk/statusicon.py:254-262 | setting the item to the recorded state, as `change_status` does, sends nothing |
| `Control.StaleTimerAfterFiring` | src/redshift-gtk/statusicon.py:238-241 | as written, after the timer fires the slot names a source the event loop no longer holds |
| `Control.StaleTimerExample` | src/redshift-gtk/statusicon.py:221-241 | suspending a fresh icon for 30 minutes and letting the timer fire leaves the timer, due at 1800 seconds, in the slot while no suspend-timer source is live |
| `Session.Step` | src/redshift-gtk/statusicon.py:188-192 | one event-loop dispatch: pipe reads go to `child_data_cb`, and a raising stdout read drops the stdout watch; the timer fires as corrected; what holds over runs of steps is stated by the `Session` lemmas below |
| `Session.StderrAccounted` | src/redshift-gtk/statusicon.py:383-398 | over any run, error text plus stderr buffer is exactly the text the child wrote to stderr, in order |
| `Session.RunKeepsSlotLive` | src/redshift-gtk/statusicon.py:215-262 | over any run with the corrected timer, the slot names exactly the live suspend-timer source |
| `Session.ControlIsRequestOnly` | src/redshift-gtk/statusicon.py:221-262 | toggles, suspends and timer firings never change the recorded state |
| `Session.FailureReportsAllStderr` | src/redshift-gtk/statusicon.py:335-361 | with the corrected exit path, a failed child's report holds every character it wrote to stderr, whatever the chunking |
| `Session.LostStderrFragment` | src/redshift-gtk/statusicon.py:338-359 | as written, a newline-free stderr message followed by a failing exit is missing from the report |
| `Launch.PathJoin` | src/redshift-gtk/statusicon.py:66 | `os.path.join` ends in the name; an absolute name replaces the directory; a relative name follows the directory with exactly one `/` between a non-empty directory and the name, added only when the directory does not already end in one |
| `Launch.ChildProgram` | src/redshift-gtk/statusicon.py:66 | the program path ends in `redshift` and is never the `-v` flag |
| `Launch.ChildArgv` | src/redshift-gtk/statusicon.py:66-68 | argv has the program first and holds `-v`; its full shape is stated by `Launch.ArgvShape` |
| `Launch.ArgvShape` | src/redshift-gtk/statusicon.py:66-68 | argv starts with the program and ends with the user's arguments unchanged; `-v` appears as often as the user gave it, and at least once |
| `Launch.DictSet` | src/redshift-gtk/statusicon.py:210 | one `env[k] = v` on the insertion-ordered dictionary; stated by `Launch.DictSetLookup` and `Launch.DictSetKeys` |
| `Launch.DictSetLookup` | src/redshift-gtk/statusicon.py:210 | after `env[k] = v`, `k` maps to `v` and every other key is unchanged |
| `Launch.DictSetKeys` | src/redshift-gtk/statusicon.py:210 | `env[k] = v` keeps the key order and appends a new key at the end |
| `Launch.SetAll` | src/redshift-gtk/statusicon.py:210 | the chained assignment, one `env[k] = v` per key from left to right; stated by `Launch.SetAllLookup`, and for the four locale variables by `Launch.ForceCLocaleLookup` |
| `Launch.SetAllLookup` | src/redshift-gtk/statusicon.py:210 | after assigning `v` to each of the keys in turn, every one of them maps to `v` and every other key is unchanged |
| `Launch.ForceCLocaleLookup` | src/redshift-gtk/statusicon.py:209-210 | the four locale variables map to `C` and every other variable is the parent's |
| `Launch.ForceCLocaleKeys` | src/redshift-gtk/statusicon.py:209-210 | the parent's variables keep their order, and the keys stay unique |
| `Launch.ForceCLocale` | src/redshift-gtk/statusicon.py:209-210 | the chained assignment of `C` to the four locale variables; stated by `Launch.ForceCLocaleLookup` and `Launch.ForceCLocaleKeys` |
| `Launch.Envp` | src/redshift-gtk/statusicon.py:211 | one `key=value` string per variable, in the dictionary's order |
| `Launch.LocaleForced` | src/redshift-gtk/statusicon.py:209-211 | the child's `envp` holds `K=C` for each locale variable `K`, and no other string defining `K` |

## Left out

- The GTK and AppIndicator interface: menus, labels, the info dialog, icon
  images, autostart and translations. None of these feed back into the
  modelled state.
- I/O: `os.read` of up to 256 bytes and its UTF-8 decoding.
  - A chunk is a parameter of `Feed`.
  - A multi-byte character split across two reads, which would raise in
    `.decode('utf-8')`, is not modelled.
- `child_cb` draining the pipes:
  - what it reads from stdout is discarded and is not modelled;
  - what it reads from stderr is the `drained` parameter.
- `Protocol.IsWordChar`: `\w` and `int()` are modelled for ASCII only;
  Unicode letters, digits and white space are left out.
- `PyInt.ParseIntRoundTrip`: CPython's 4300-digit limit on `int()` of a
  string is not modelled, so very long numbers are accepted.
- `PyInt.ParseIntComplete`: for the same reason, a spelling with more than
  4300 digits is accepted, where CPython raises.
- Signals are counted, not delivered:
  - `SIGUSR1` to the child is `togglesSent`;
  - `SIGTERM`/`SIGINT` handling and the relay of `SIGUSR1` from outside are
    left out.
- Timing: the event loop's clock and scheduling are left out. A timer
  carries its deadline, and when it fires is an event chosen by the caller.
- `termwait` and `run()` are left out, because they are process management
  outside the core.
- The mutable default argument of `__init__`: the model takes the user's
  arguments as a parameter. The source's `args=[]` would carry insertions
  over to a second instance, and a second instance is never created.
- Environment keys containing `=` cannot occur in `os.environ`.
  `Launch.LocaleForced` assumes this (`NoEquals`).
- The event loop dropping a stdout watch whose callback raised is modelled
  as that pipe no longer being read. The warning it logs is left out.

## Findings

| source | as written | input that shows it | evidently intended | confidence | as-written member | corrected member |
|---|---|---|---|---|---|---|
| src/redshift-gtk/statusicon.py:338-359 | The failure dialog shows `self.errors` plus what is drained after the exit. Text already read into `error_buffer` without a newline is never added. | The child writes `fatal error` with no newline, that chunk is read, and the child exits with code 1. The dialog shows an empty message. | The dialog shows everything the child wrote to stderr. | medium, not executed | `Session.LostStderrFragment` | `Session.FailureReportsAllStderr` |
| src/redshift-gtk/statusicon.py:236-241 | `reenable_cb` returns `None`, so the event loop destroys the timer source after it fires, but `self.suspend_timer` keeps its id. | Suspend for 30 minutes and let the timer fire. A later toggle calls `source_remove` on the dead id, and GLib warns. | Clear `suspend_timer` when the timer fires. | high, not executed | `Control.StaleTimerAfterFiring` | `Session.RunKeepsSlotLive` |

=== FILE: control.dfy ===
/** The toggle and suspend callbacks. A toggle is a request: it sends the
    child SIGUSR1 and never writes the recorded status, which changes only
    when the child reports `Status:`. A suspend keeps at most one pending
    re-enable timer, replacing any earlier one. */
module Control {
  import opened Wrappers
  import opened StateStore
  import opened StatusIcon

  /** `child_toggle_status`: one SIGUSR1 to the child. */
  function ChildToggleStatus(s: Icon): (r: Icon)
    ensures r.togglesSent == s.togglesSent + 1
    ensures r.(togglesSent := s.togglesSent) == s
  {
    s.(togglesSent := s.togglesSent + 1)
  }

  /** The sources the slot accounts for: its own, if it holds one. */
  function SlotSources(timer: Option<Timer>): set<nat> {
    if timer.Some? then {timer.value.source} else {}
  }

  /** The event loop holds no suspend-timer source other than the one in
      the slot, and that one's id was handed out already. */
  predicate AtMostSlot(s: Icon) {
    && s.armed <= SlotSources(s.timer)
    && (s.timer.Some? ==> s.timer.value.source < s.nextSource)
  }

  /** The slot names exactly the source the event loop holds. */
  predicate SlotLive(s: Icon) {
    && s.armed == SlotSources(s.timer)
    && (s.timer.Some? ==> s.timer.value.source < s.nextSource)
  }

  /** `remove_suspend_timer`: the slot's source is removed from the event
      loop and the slot is cleared. */
  function RemoveSuspendTimer(s: Icon): (r: Icon)
    ensures r.timer.None?
    ensures r.armed == s.armed - SlotSources(s.timer)
    ensures r.(timer := s.timer, armed := s.armed) == s
  {
    match s.timer
    case None => s
    case Some(t) => s.(timer := None, armed := s.armed - {t.source})
  }

  /** `suspend_cb(minutes)` at time `now` (seconds): toggle off if enabled,
      drop any pending timer, and arm a fresh one due `minutes * 60`
      seconds later. */
  function SuspendCb(s: Icon, minutes: nat, now: int): (r: Icon)
    ensures r.togglesSent == s.togglesSent + (if IsEnabled(s.reading) then 1 else 0)
    ensures r.reading == s.reading
    ensures r.timer.Some? && r.timer.value.deadline == now + minutes * 60
    ensures r.armed == s.armed - SlotSources(s.timer) + {r.timer.value.source}
    ensures AtMostSlot(s) ==> SlotLive(r) && r.armed == {r.timer.value.source}
    ensures AtMostSlot(s) && s.timer.Some? ==> s.timer.value.source !in r.armed
    ensures r.outBuf == s.outBuf && r.errBuf == s.errBuf && r.errors == s.errors
  {
    var s1 := if IsEnabled(s.reading) then ChildToggleStatus(s) else s;
    var s2 := RemoveSuspendTimer(s1);
    var id := s2.nextSource;
    s2.(timer := Some(Timer(id, now + minutes * 60)), armed := s2.armed + {id}, nextSource := id + 1)
  }

  /** `reenable_cb`: toggle only if the recorded state is disabled. */
  function ReenableCb(s: Icon): (r: Icon)
    ensures r.togglesSent == s.togglesSent + (if IsEnabled(s.reading) then 0 else 1)
    ensures r.(togglesSent := s.togglesSent) == s
  {
    if !IsEnabled(s.reading) then ChildToggleStatus(s) else s
  }

  /** The event loop fires the armed suspend timer as written: the source
      is destroyed after `reenable_cb` returns `None`, but `suspend_timer`
      still holds its id. */
  function TimerFiresAsWritten(s: Icon): (r: Icon)
    ensures r.reading == s.reading && r.timer == s.timer
  {
    match s.timer
    case Some(t) =>
      if t.source in s.armed then ReenableCb(s.(armed := s.armed - {t.source})) else s
    case None => s
  }

  /** The event loop fires the armed suspend timer, with the slot cleared
      as the source goes away. */
  function TimerFires(s: Icon): (r: Icon)
    ensures r.reading == s.reading
    ensures SlotLive(s) ==> SlotLive(r) && r.timer.None? && r.armed == {}
    ensures SlotLive(s) ==>
      r.togglesSent == s.togglesSent + (if s.timer.Some? && !IsEnabled(s.reading) then 1 else 0)
  {
    match s.timer
    case Some(t) =>
      if t.source in s.armed then ReenableCb(s.(timer := None, armed := s.armed - {t.source})) else s
    case None => s
  }

  /** `toggle_cb`: drop any pending timer and request one toggle. */
  function ToggleCb(s: Icon): (r: Icon)
    ensures r.togglesSent == s.togglesSent + 1
    ensures r.reading == s.reading
    ensures r.timer.None? && r.armed == s.armed - SlotSources(s.timer)
    ensures SlotLive(s) ==> SlotLive(r)
  {
    ChildToggleStatus(RemoveSuspendTimer(s))
  }

  /** `toggle_item_cb(active)`: act like `toggle_cb` only when the menu
      item's new state differs from the recorded one. */
  function ToggleItemCb(s: Icon, active: bool): (r: Icon)
    ensures active != IsEnabled(s.reading) ==> r == ToggleCb(s)
    ensures active == IsEnabled(s.reading) ==> r == s
  {
    if IsEnabled(s.reading) != active then ToggleCb(s) else s
  }

  /** Two suspends in a row leave one pending timer, the second one, due
      at the second call's time plus its duration; the first timer's
      source is gone and can never fire. */
  lemma SuspendReplaces(s: Icon, m1: nat, t1: int, m2: nat, t2: int)
    requires AtMostSlot(s)
    ensures var s1 := SuspendCb(s, m1, t1);
            var s2 := SuspendCb(s1, m2, t2);
            && s2.timer.Some? && s2.timer.value.deadline == t2 + m2 * 60
            && s2.armed == {s2.timer.value.source}
            && s1.timer.value.source != s2.timer.value.source
  {
    var s1 := SuspendCb(s, m1, t1);
    assert AtMostSlot(s1);
  }

  /** Suspending while disabled sends nothing now, and the timer re-enables
      when it fires if the state is still disabled; if the child was
      enabled in the meantime, the firing sends nothing. */
  lemma SuspendWhileDisabled(s: Icon, m: nat, now: int)
    requires AtMostSlot(s) && !IsEnabled(s.reading)
    ensures var s1 := SuspendCb(s, m, now);
            && s1.togglesSent == s.togglesSent
            && TimerFires(s1).togglesSent == s.togglesSent + 1
            && TimerFires(s1.(reading := ChangeStatus(s1.reading, true))).togglesSent == s.togglesSent
  {
  }

  /** Toggling twice with no report in between sends two requests and
      leaves the recorded state as it was. */
  lemma ToggleTwice(s: Icon)
    ensures ToggleCb(ToggleCb(s)).togglesSent == s.togglesSent + 2
    ensures ToggleCb(ToggleCb(s)).reading == s.reading
  {
  }

  /** Setting the menu item to the recorded status (what `change_status`
      does to keep the item in step) sends nothing. */
  lemma ItemEchoIsQuiet(s: Icon)
    ensures ToggleItemCb(s, IsEnabled(s.reading)) == s
  {
  }

  /** As written, a fired timer leaves `suspend_timer` naming a source the
      event loop no longer holds, so the next `remove_suspend_timer` (from
      a toggle or another suspend) asks to remove a source that is gone. */
  lemma StaleTimerAfterFiring(s: Icon)
    requires SlotLive(s) && s.timer.Some?
    ensures var r := TimerFiresAsWritten(s);
            && r.timer.Some? && r.timer.value.source !in r.armed
            && !SlotLive(r)
  {
  }

  /** A concrete run: suspend for 30 minutes from a fresh icon, let the
      timer fire, and the slot is stale. The source id is whichever one the
      event loop handed out for the timer; its value is not fixed here. */
  lemma StaleTimerExample()
    ensures var s := SuspendCb(Init(), 30, 0);
            var r := TimerFiresAsWritten(s);
            && r.timer == s.timer
            && r.timer.Some? && r.timer.value.deadline == 1800
            && r.timer.value.source !in r.armed && r.armed == {}
  {
  }
}

=== FILE: launch.dfy ===
/** How the child is started: its argument vector, with the program path
    in front and `-v` made sure of, and its environment, a copy of the
    parent's with the locale forced to C so that its output can be parsed. */
module Launch {
  import opened Wrappers
  import opened PyStr

  const ProgramName := "redshift"
  const VerboseFlag := "-v"
  const LocaleVars := ["LANG", "LANGUAGE", "LC_ALL", "LC_MESSAGES"]

  predicate EndsWith(s: string, p: string) {
    |p| <= |s| && s[|s| - |p|..] == p
  }

  /** POSIX `os.path.join` of two components: an absolute second component
      replaces the first; otherwise one `/` separates them unless the first
      is empty or already ends in one. */
  function PathJoin(dir: string, name: string): (r: string)
    ensures EndsWith(r, name)
    ensures |name| > 0 && name[0] == '/' ==> r == name
    ensures !(|name| > 0 && name[0] == '/') ==>
              && dir <= r
              && |dir| + |name| <= |r| <= |dir| + |name| + 1
              && (dir != "" ==> r[|r| - |name| - 1] == '/')
    ensures !(|name| > 0 && name[0] == '/') && (dir == "" || dir[|dir| - 1] == '/') ==> r == dir + name
  {
    if |name| > 0 && name[0] == '/' then name
    else if dir == [] || dir[|dir| - 1] == '/' then dir + name
    else dir + "/" + name
  }

  /** The program the icon starts: `redshift` in the install's bin directory. */
  function ChildProgram(bindir: string): (r: string)
    ensures EndsWith(r, ProgramName)
    ensures r != VerboseFlag
  {
    PathJoin(bindir, ProgramName)
  }

  function Count(xs: seq<string>, x: string): (n: nat)
    ensures n <= |xs|
    ensures n == 0 <==> x !in xs
  {
    if xs == [] then 0 else (if xs[0] == x then 1 else 0) + Count(xs[1..], x)
  }

  lemma {:induction false} CountAppend(xs: seq<string>, ys: seq<string>, x: string)
    ensures Count(xs + ys, x) == Count(xs, x) + Count(ys, x)
  {
    if xs == [] {
      assert xs + ys == ys;
    } else {
      assert (xs + ys)[1..] == xs[1..] + ys;
      CountAppend(xs[1..], ys, x);
    }
  }

  /** The argument vector: the program path goes in front of the user's
      arguments, and `-v` goes right after it unless the vector already
      holds one. */
  function ChildArgv(bindir: string, args: seq<string>): (r: seq<string>)
    ensures |r| >= 2 && r[0] == ChildProgram(bindir) && VerboseFlag in r
  {
    var a := [ChildProgram(bindir)] + args;
    if VerboseFlag !in a then [a[0], VerboseFlag] + a[1..] else a
  }

  /** The child always runs the program, always gets `-v` exactly as often
      as the user passed it but at least once, and gets the user's
      arguments unchanged and in order at the end. */
  lemma ArgvShape(bindir: string, args: seq<string>)
    ensures var r := ChildArgv(bindir, args);
            && |r| >= 2
            && r[0] == ChildProgram(bindir)
            && r[|r| - |args|..] == args
            && |r| == |args| + (if VerboseFlag in args then 1 else 2)
            && Count(r, VerboseFlag) == (if VerboseFlag in args then Count(args, VerboseFlag) else 1)
  {
    var p := ChildProgram(bindir);
    var r := ChildArgv(bindir, args);
    if VerboseFlag in args {
      assert r == [p] + args;
      CountAppend([p], args, VerboseFlag);
    } else {
      assert r == [p, VerboseFlag] + args;
      CountAppend([p, VerboseFlag], args, VerboseFlag);
      assert [p, VerboseFlag][1..] == [VerboseFlag];
    }
  }

  /** A dictionary with insertion order, as Python keeps one. */
  type Env = seq<(string, string)>

  predicate Distinct(ks: seq<string>) {
    forall i, j :: 0 <= i < j < |ks| ==> ks[i] != ks[j]
  }

  function Keys(env: Env): (ks: seq<string>)
    ensures |ks| == |env|
    ensures forall i :: 0 <= i < |env| ==> ks[i] == env[i].0
  {
    if env == [] then [] else [env[0].0] + Keys(env[1..])
  }

  /** No key appears twice, as in any dictionary. */
  predicate UniqueKeys(env: Env) {
    Distinct(Keys(env))
  }

  function Lookup(env: Env, k: string): (r: Option<string>)
    ensures r.None? <==> k !in Keys(env)
    ensures r.Some? ==> exists i :: 0 <= i < |env| && env[i] == (k, r.value)
  {
    if env == [] then None
    else if env[0].0 == k then Some(env[0].1)
    else
      var r := Lookup(env[1..], k);
      // The tail's entry at index i is the whole list's entry at i + 1.
      assert r.Some? ==> exists i :: 0 <= i < |env| && env[i] == (k, r.value) by {
        if r.Some? {
          var i :| 0 <= i < |env[1..]| && env[1..][i] == (k, r.value);
          assert env[i + 1] == (k, r.value);
        }
      }
      r
  }

  /** With unique keys, the entry at any index is the one lookup finds. */
  lemma {:induction false} LookupAt(env: Env, i: nat)
    requires UniqueKeys(env) && i < |env|
    ensures Lookup(env, env[i].0) == Some(env[i].1)
  {
    if i > 0 {
      assert env[0].0 != env[i].0;
      assert env[1..][i - 1] == env[i];
      LookupAt(env[1..], i - 1);
    }
  }

  /** `env[k] = v`: an existing key keeps its place and takes the new value;
      a new key goes at the end. */
  function DictSet(env: Env, k: string, v: string): Env {
    if env == [] then [(k, v)]
    else if env[0].0 == k then [(k, v)] + env[1..]
    else [env[0]] + DictSet(env[1..], k, v)
  }

  /** After `env[k] = v`, `k` maps to `v` and every other key to what it
      mapped to before. */
  lemma {:induction false} DictSetLookup(env: Env, k: string, v: string, k': string)
    ensures Lookup(DictSet(env, k, v), k') == if k' == k then Some(v) else Lookup(env, k')
  {
    if env != [] && env[0].0 != k {
      var t := DictSet(env[1..], k, v);
      assert DictSet(env, k, v) == [env[0]] + t;
      assert ([env[0]] + t)[1..] == t;
      DictSetLookup(env[1..], k, v, k');
    } else if env != [] {
      assert ([(k, v)] + env[1..])[1..] == env[1..];
    }
  }

  /** `env[k] = v` keeps the order of the keys and appends a new one. */
  lemma {:induction false} DictSetKeys(env: Env, k: string, v: string)
    ensures Keys(DictSet(env, k, v)) == if k in Keys(env) then Keys(env) else Keys(env) + [k]
  {
    if env != [] && env[0].0 != k {
      var t := DictSet(env[1..], k, v);
      assert DictSet(env, k, v) == [env[0]] + t;
      assert ([env[0]] + t)[1..] == t;
      DictSetKeys(env[1..], k, v);
      assert Keys(env) == [env[0].0] + Keys(env[1..]);
      assert k in Keys(env) <==> k in Keys(env[1..]);
    } else if env != [] {
      assert ([(k, v)] + env[1..])[1..] == env[1..];
    }
  }

  /** `env[k] = v` keeps a dictionary's keys unique. */
  lemma DictSetUnique(env: Env, k: string, v: string)
    requires UniqueKeys(env)
    ensures UniqueKeys(DictSet(env, k, v))
  {
    var r := DictSet(env, k, v);
    DictSetKeys(env, k, v);
  }

  /** `env[k1] = env[k2] = ... = v`: Python assigns the targets of a
      chained assignment from left to right. */
  function SetAll(env: Env, ks: seq<string>, v: string): Env
    decreases |ks|
  {
    if ks == [] then env else SetAll(DictSet(env, ks[0], v), ks[1..], v)
  }

  lemma {:induction false} SetAllLookup(env: Env, ks: seq<string>, v: string, k: string)
    ensures Lookup(SetAll(env, ks, v), k) == if k in ks then Some(v) else Lookup(env, k)
    decreases |ks|
  {
    if ks != [] {
      var e1 := DictSet(env, ks[0], v);
      DictSetLookup(env, ks[0], v, k);
      SetAllLookup(e1, ks[1..], v, k);
      InTail(ks, k);
    }
  }

  lemma InTail(ks: seq<string>, k: string)
    requires ks != []
    ensures k in ks <==> k == ks[0] || k in ks[1..]
  {
    assert ks == [ks[0]] + ks[1..];
  }

  lemma {:induction false} SetAllKeys(env: Env, ks: seq<string>, v: string)
    ensures Keys(env) <= Keys(SetAll(env, ks, v))
    ensures UniqueKeys(env) ==> UniqueKeys(SetAll(env, ks, v))
    decreases |ks|
  {
    if ks != [] {
      var e1 := DictSet(env, ks[0], v);
      DictSetKeys(env, ks[0], v);
      if UniqueKeys(env) {
        DictSetUnique(env, ks[0], v);
      }
      SetAllKeys(e1, ks[1..], v);
    }
  }

  lemma {:induction false} SetAllNoEquals(env: Env, ks: seq<string>, v: string)
    requires NoEquals(env) && forall i :: 0 <= i < |ks| ==> '=' !in ks[i]
    ensures NoEquals(SetAll(env, ks, v))
    decreases |ks|
  {
    if ks != [] {
      DictSetNoEquals(env, ks[0], v);
      SetAllNoEquals(DictSet(env, ks[0], v), ks[1..], v);
    }
  }

  /** The child's environment: the parent's, with every locale variable set
      to "C". */
  function ForceCLocale(env: Env): Env {
    SetAll(env, LocaleVars, "C")
  }

  /** Every locale variable maps to "C" afterwards and every other variable
      is as it was. */
  lemma ForceCLocaleLookup(env: Env, k: string)
    ensures Lookup(ForceCLocale(env), k) == if k in LocaleVars then Some("C") else Lookup(env, k)
  {
    SetAllLookup(env, LocaleVars, "C", k);
  }

  /** The parent's variables keep their order and a dictionary stays one. */
  lemma ForceCLocaleKeys(env: Env)
    ensures Keys(env) <= Keys(ForceCLocale(env))
    ensures UniqueKeys(env) ==> UniqueKeys(ForceCLocale(env))
  {
    SetAllKeys(env, LocaleVars, "C");
  }

  /** The `envp` list handed to the spawn: one `key=value` string per entry,
      in dictionary order. */
  function Envp(env: Env): (r: seq<string>)
    ensures |r| == |env|
    ensures forall i :: 0 <= i < |env| ==> r[i] == env[i].0 + "=" + env[i].1
  {
    if env == [] then [] else [env[0].0 + "=" + env[0].1] + Envp(env[1..])
  }

  /** No key holds `=`, as the operating system requires of environment
      names. */
  predicate NoEquals(env: Env) {
    forall i :: 0 <= i < |env| ==> '=' !in Keys(env)[i]
  }

  lemma DictSetNoEquals(env: Env, k: string, v: string)
    requires NoEquals(env) && '=' !in k
    ensures NoEquals(DictSet(env, k, v))
  {
    DictSetKeys(env, k, v);
  }

  lemma ForceCLocaleNoEquals(env: Env)
    requires NoEquals(env)
    ensures NoEquals(ForceCLocale(env))
  {
    LocaleVarsPlain();
    SetAllNoEquals(env, LocaleVars, "C");
  }

  /** An entry `k=...` can only come from key `k` when neither contains `=`:
      both are the text before the entry's first `=`. */
  lemma EntryKey(key: string, value: string, k: string)
    requires '=' !in key && '=' !in k
    requires k + "=" <= key + "=" + value
    ensures key == k
  {
    var e := key + "=" + value;
    var rest := e[|k| + 1..];
    assert e == key + ['='] + value;
    assert e == k + ['='] + rest by {
      assert e[..|k| + 1] == k + "=";
      assert e == e[..|k| + 1] + rest;
    }
    PartitionAt(key, '=', value);
    PartitionAt(k, '=', rest);
  }

  /** A key of a proper dictionary is defined in its `envp` exactly by the
      one `k=v` string of its entry. */
  lemma EnvpDefines(r: Env, k: string, v: string)
    requires UniqueKeys(r) && NoEquals(r) && '=' !in k && Lookup(r, k) == Some(v)
    ensures var envp := Envp(r);
            && k + "=" + v in envp
            && forall i :: 0 <= i < |envp| && k + "=" <= envp[i] ==> envp[i] == k + "=" + v
  {
    var envp := Envp(r);
    var j :| 0 <= j < |r| && r[j] == (k, v);
    assert envp[j] == k + "=" + v;
    forall i | 0 <= i < |envp| && k + "=" <= envp[i]
      ensures envp[i] == k + "=" + v
    {
      assert Keys(r)[i] == r[i].0;
      EntryKey(r[i].0, r[i].1, k);
      LookupAt(r, i);
    }
  }

  lemma LocaleVarsPlain()
    ensures forall i :: 0 <= i < |LocaleVars| ==> '=' !in LocaleVars[i]
  {
  }

  /** The child sees each locale variable defined, and defined only as C:
      every `envp` string that names it reads `k=C`. */
  lemma LocaleForced(env: Env, n: nat)
    requires UniqueKeys(env) && NoEquals(env) && n < |LocaleVars|
    ensures var k := LocaleVars[n];
            var envp := Envp(ForceCLocale(env));
            && k + "=C" in envp
            && forall i :: 0 <= i < |envp| && k + "=" <= envp[i] ==> envp[i] == k + "=C"
  {
    var k := LocaleVars[n];
    var r := ForceCLocale(env);
    LocaleVarsPlain();
    assert k in LocaleVars;
    ForceCLocaleLookup(env, k);
    ForceCLocaleKeys(env);
    ForceCLocaleNoEquals(env);
    EnvpDefines(r, k, "C");
    ConcatEqualsC(k);
  }

  /** The `key=value` string of `C` spelled with one literal. */
  lemma ConcatEqualsC(k: string)
    ensures k + "=" + "C" == k + "=C"
  {
  }
}

=== FILE: lines.dfy ===
/** Line reassembly for one of the child's output streams: the buffered
    text is cut at each newline, complete lines come out in order, and the
    unterminated tail stays buffered for the next read. */
module Lines {
  import PyStr

  /** Every line followed by its newline, concatenated: the text a sequence
      of complete lines was cut from. */
  function Joined(lines: seq<string>): string
  {
    if lines == [] then "" else lines[0] + "\n" + Joined(lines[1..])
  }

  predicate NoNewline(s: string) { '\n' !in s }

  predicate AllNoNewline(lines: seq<string>) {
    forall i :: 0 <= i < |lines| ==> NoNewline(lines[i])
  }

  /** Repeatedly partition the buffer at its first newline. The result is
      the complete lines (without their newlines) and the remainder that
      is kept buffered. */
  function SplitLines(buf: string): (r: (seq<string>, string))
    ensures Joined(r.0) + r.1 == buf
    ensures NoNewline(r.1)
    ensures AllNoNewline(r.0)
    decreases |buf|
  {
    var (first, sep, last) := PyStr.Partition(buf, '\n');
    if sep == "" then ([], buf)
    else
      var (lines, rest) := SplitLines(last);
      assert ([first] + lines)[1..] == lines;
      ([first] + lines, rest)
  }

  lemma {:induction false} JoinedAppend(xs: seq<string>, ys: seq<string>)
    ensures Joined(xs + ys) == Joined(xs) + Joined(ys)
    decreases |xs|
  {
    if xs == [] {
      assert xs + ys == ys;
    } else {
      assert (xs + ys)[1..] == xs[1..] + ys;
      JoinedAppend(xs[1..], ys);
    }
  }

  /** The first line of a non-empty sequence is what the first partition
      of its joined text returns. */
  lemma JoinedFirst(lines: seq<string>, rest: string)
    requires |lines| > 0 && NoNewline(lines[0])
    ensures PyStr.Partition(Joined(lines) + rest, '\n')
         == (lines[0], "\n", Joined(lines[1..]) + rest)
  {
    assert Joined(lines) + rest == lines[0] + ['\n'] + (Joined(lines[1..]) + rest);
    PyStr.PartitionAt(lines[0], '\n', Joined(lines[1..]) + rest);
  }

  /** Uniqueness: newline-free lines and a newline-free remainder are
      exactly what splitting their joined text gives back. */
  lemma {:induction false} SplitJoined(lines: seq<string>, rest: string)
    requires AllNoNewline(lines) && NoNewline(rest)
    ensures SplitLines(Joined(lines) + rest) == (lines, rest)
    decreases |lines|
  {
    if lines == [] {
      assert Joined(lines) + rest == rest;
    } else {
      JoinedFirst(lines, rest);
      SplitJoined(lines[1..], rest);
      assert [lines[0]] + lines[1..] == lines;
    }
  }

  /** Splitting is determined by its result's two properties. */
  lemma SplitLinesUnique(buf: string, lines: seq<string>, rest: string)
    requires Joined(lines) + rest == buf
    requires AllNoNewline(lines) && NoNewline(rest)
    ensures SplitLines(buf) == (lines, rest)
  {
    SplitJoined(lines, rest);
  }

  lemma AllNoNewlineAppend(xs: seq<string>, ys: seq<string>)
    requires AllNoNewline(xs) && AllNoNewline(ys)
    ensures AllNoNewline(xs + ys)
  {
    forall i | 0 <= i < |xs + ys|
      ensures NoNewline((xs + ys)[i])
    {
      if i < |xs| { assert (xs + ys)[i] == xs[i]; } else { assert (xs + ys)[i] == ys[i - |xs|]; }
    }
  }

  lemma Regroup(j1: string, j2: string, r1: string, r2: string, ba: string, b: string)
    requires j1 + r1 == ba && j2 + r2 == r1 + b
    ensures j1 + j2 + r2 == ba + b
  {
    calc {
      j1 + j2 + r2;
      j1 + (j2 + r2);
      j1 + (r1 + b);
      j1 + r1 + b;
    }
  }

  /** Chunk independence: splitting `buf + a` and then splitting the kept
      remainder plus `b` gives the same lines, and the same remainder, as
      splitting `buf + a + b` at once. */
  lemma ChunkIndependence(buf: string, a: string, b: string)
    ensures SplitLines(buf + a + b)
         == (SplitLines(buf + a).0 + SplitLines(SplitLines(buf + a).1 + b).0,
             SplitLines(SplitLines(buf + a).1 + b).1)
  {
    var first := SplitLines(buf + a);
    var second := SplitLines(first.1 + b);
    var l1, r1, l2, r2 := first.0, first.1, second.0, second.1;
    JoinedAppend(l1, l2);
    AllNoNewlineAppend(l1, l2);
    Regroup(Joined(l1), Joined(l2), r1, r2, buf + a, b);
    SplitLinesUnique(buf + a + b, l1 + l2, r2);
  }
}

=== FILE: protocol.dfy ===
/** Decoding of the child's standard-output protocol: a line `KEY: VALUE`
    is recognised the way `re.match(r'([\w ]+): (.+)', line)` recognises
    it, and the four known keys update the recorded state. */
module Protocol {
  import opened Wrappers
  import opened StateStore
  import PyStr
  import PyInt

  /** `\w`: letters, digits and underscore (ASCII). */
  predicate IsWordChar(c: char) {
    ('a' <= c <= 'z') || ('A' <= c <= 'Z') || ('0' <= c <= '9') || c == '_'
  }

  /** A character of the class `[\w ]`. */
  predicate IsKeyChar(c: char) { IsWordChar(c) || c == ' ' }

  /** A text `([\w ]+)` matches in full. */
  predicate IsKey(k: string) {
    |k| > 0 && forall i :: 0 <= i < |k| ==> IsKeyChar(k[i])
  }

  /** Length of the longest prefix of key characters. */
  function KeyRun(s: string): (n: nat)
    ensures n <= |s|
    ensures forall i :: 0 <= i < n ==> IsKeyChar(s[i])
    ensures n < |s| ==> !IsKeyChar(s[n])
    decreases |s|
  {
    if |s| > 0 && IsKeyChar(s[0]) then 1 + KeyRun(s[1..]) else 0
  }

  /** Length of the longest prefix without a newline: what `.+` consumes. */
  function LineRun(s: string): (n: nat)
    ensures n <= |s|
    ensures '\n' !in s[..n]
    ensures n < |s| ==> s[n] == '\n'
    decreases |s|
  {
    if |s| > 0 && s[0] != '\n' then
      var m := LineRun(s[1..]);
      assert s[..1 + m] == [s[0]] + s[1..][..m];
      1 + m
    else 0
  }

  /** `re.match(r'([\w ]+): (.+)', line)` and its two groups. The greedy
      key group can only end where the run of key characters ends, because
      `:` is not a key character, so no backtracking alternative exists. */
  function Match(line: string): (r: Option<(string, string)>)
    ensures r.Some? ==> IsKey(r.value.0) && |r.value.1| > 0 && '\n' !in r.value.1
    ensures r.Some? ==> r.value.0 + ": " + r.value.1 <= line
  {
    var n := KeyRun(line);
    if n > 0 && n + 2 <= |line| && line[n..n + 2] == ": " then
      var rest := line[n + 2..];
      var m := LineRun(rest);
      if m > 0 then
        assert line[..n] + ": " + rest[..m] == line[..n + 2 + m];
        Some((line[..n], rest[..m]))
      else None
    else None
  }

  /** On a line without a newline (every line the splitter produces),
      `Match` succeeds with `(k, v)` exactly when the line is `k + ": " + v`
      with `k` made of key characters and `v` non-empty. */
  lemma MatchIff(line: string, k: string, v: string)
    requires '\n' !in line
    ensures Match(line) == Some((k, v)) <==> (line == k + ": " + v && IsKey(k) && |v| > 0)
  {
    if line == k + ": " + v && IsKey(k) && |v| > 0 {
      var n := KeyRun(line);
      assert line[|k|] == ':';
      assert n == |k|;
      assert line[n..n + 2] == ": ";
      var rest := line[n + 2..];
      assert rest == v;
      var m := LineRun(rest);
      assert m == |v|;
      assert line[..n] == k && rest[..m] == v;
    }
    if Match(line) == Some((k, v)) {
      var n := KeyRun(line);
      var rest := line[n + 2..];
      var m := LineRun(rest);
      assert rest[..m] == rest;
      assert k == line[..n] && v == rest;
      assert line == line[..n] + line[n..n + 2] + rest;
    }
  }

  const StatusKey := "Status"
  const TemperatureKey := "Color temperature"
  const PeriodKey := "Period"
  const LocationKey := "Location"

  /** What the decoder can raise: `int()` rejecting a temperature, or the
      location label's format string asking for a second component the
      report did not have. */
  datatype Fault = BadTemperature(text: string) | ShortLocation(parts: seq<string>)

  /** The recorded state after a line, and the exception raised, if any. */
  datatype Decoded = Decoded(reading: Reading, fault: Option<Fault>)

  /** `int(value.rstrip('K'), 10)`. */
  function Temperature(value: string): Option<int> {
    PyInt.ParseInt(PyStr.RStrip(value, 'K'))
  }

  /** `child_key_change_cb`: each known key writes its own field; unknown
      keys change nothing. */
  function ApplyKey(rd: Reading, key: string, value: string): (r: Decoded)
    ensures key != StatusKey ==> r.reading.status == rd.status
    ensures key != TemperatureKey ==> r.reading.temperature == rd.temperature
    ensures key != PeriodKey ==> r.reading.period == rd.period
    ensures key != LocationKey ==> r.reading.location == rd.location
    ensures r.fault.Some? ==> key in {TemperatureKey, LocationKey}
  {
    if key == StatusKey then
      Decoded(ChangeStatus(rd, value != "Disabled"), None)
    else if key == TemperatureKey then
      match Temperature(value)
      case Some(t) => Decoded(ChangeTemperature(rd, t), None)
      case None => Decoded(rd, Some(BadTemperature(value)))
    else if key == PeriodKey then
      Decoded(ChangePeriod(rd, value), None)
    else if key == LocationKey then
      var parts := PyStr.Split(value, PyStr.CommaSpace);
      // The location is recorded first; formatting its label then needs two parts.
      Decoded(ChangeLocation(rd, Reported(parts)),
              if |parts| < 2 then Some(ShortLocation(parts)) else None)
    else
      Decoded(rd, None)
  }

  /** `child_stdout_line_cb`: empty and non-matching lines are ignored. */
  function HandleLine(rd: Reading, line: string): Decoded
  {
    if line == "" then Decoded(rd, None)
    else
      match Match(line)
      case Some((k, v)) => ApplyKey(rd, k, v)
      case None => Decoded(rd, None)
  }

  /** Only a line that matches `KEY: VALUE` can change the state or raise,
      and only a temperature or a location report can raise. */
  lemma HandleLineEffects(rd: Reading, line: string)
    ensures var r := HandleLine(rd, line);
            && (r.reading != rd ==> Match(line).Some?)
            && (r.fault.Some? ==> Match(line).Some? && Match(line).value.0 in {TemperatureKey, LocationKey})
  {
  }

  /** The line the child prints for a key and a value. */
  function Report(key: string, value: string): string { key + ": " + value }

  /** Lines that carry no known report leave the whole state alone. */
  lemma IgnoredLines(rd: Reading, line: string)
    requires line == "" || Match(line).None? || Match(line).value.0 !in {StatusKey, TemperatureKey, PeriodKey, LocationKey}
    ensures HandleLine(rd, line) == Decoded(rd, None)
  {
  }

  /** A line that is not `KEY: VALUE` is ignored: no key characters before
      the first `": "`, for instance. */
  lemma NoKeyIgnored(rd: Reading, line: string)
    requires |line| > 0 && !IsKeyChar(line[0])
    ensures HandleLine(rd, line) == Decoded(rd, None)
  {
  }

  /** `Status: v` records `v != "Disabled"` and nothing else. */
  lemma StatusReport(rd: Reading, v: string)
    requires |v| > 0 && '\n' !in v
    ensures HandleLine(rd, Report(StatusKey, v)) == Decoded(rd.(status := v != "Disabled"), None)
  {
    ReportMatches(StatusKey, v);
  }

  /** `Period: v` records exactly `v` and nothing else. */
  lemma PeriodReport(rd: Reading, v: string)
    requires |v| > 0 && '\n' !in v
    ensures HandleLine(rd, Report(PeriodKey, v)) == Decoded(rd.(period := v), None)
  {
    ReportMatches(PeriodKey, v);
  }

  /** `Color temperature: <n>K` records `n`, however many `K`s follow and
      whatever white space surrounds the number. */
  lemma TemperatureReport(rd: Reading, w1: string, n: int, w2: string, ks: nat)
    requires PyInt.AllSpace(w1) && PyInt.AllSpace(w2)
    requires '\n' !in w1 && '\n' !in w2
    ensures HandleLine(rd, Report(TemperatureKey, w1 + PyInt.IntToDecimal(n) + w2 + PyStr.Repeat('K', ks)))
         == Decoded(rd.(temperature := n), None)
  {
    var sp := PyInt.DecimalSpelling(w1, n, w2);
    SpelledTemperatureReport(rd, sp, ks);
  }

  /** `Color temperature: <spelling>K` records the value of any spelling
      `int()` accepts (`+045`, `4_500`, ` -3 `), however many `K`s
      follow. */
  lemma SpelledTemperatureReport(rd: Reading, sp: PyInt.Spelling, ks: nat)
    requires PyInt.WellSpelled(sp)
    requires '\n' !in sp.lead && '\n' !in sp.trail
    ensures HandleLine(rd, Report(TemperatureKey, PyInt.Text(sp) + PyStr.Repeat('K', ks)))
         == Decoded(rd.(temperature := PyInt.SpelledValue(sp)), None)
  {
    var v := PyInt.Text(sp) + PyStr.Repeat('K', ks);
    SpelledTemperature(sp, ks);
    ReportMatches(TemperatureKey, v);
  }

  /** The value of such a report parses to the spelled value. */
  lemma SpelledTemperature(sp: PyInt.Spelling, ks: nat)
    requires PyInt.WellSpelled(sp)
    requires '\n' !in sp.lead && '\n' !in sp.trail
    ensures var v := PyInt.Text(sp) + PyStr.Repeat('K', ks);
            |v| > 0 && '\n' !in v && Temperature(v) == Some(PyInt.SpelledValue(sp))
  {
    var body := PyInt.Text(sp);
    var v := body + PyStr.Repeat('K', ks);
    var d := sp.digits;
    assert '\n' !in sp.sign + d by {
      assert forall i :: 0 <= i < |d| ==> d[i] == '_' || PyInt.IsDigit(d[i]);
    }
    assert '\n' !in v;
    assert body[|body| - 1] != 'K' by {
      if |sp.trail| > 0 {
        assert body[|body| - 1] == sp.trail[|sp.trail| - 1];
      } else {
        assert body[|body| - 1] == d[|d| - 1];
      }
    }
    PyStr.RStripPadding(body, 'K', ks);
    PyInt.ParseIntComplete(sp);
  }

  /** Every other temperature value is the error case: when what is left
      after `rstrip('K')` is no spelling of a number, `int()` raises and the
      recorded state is left alone. */
  lemma BadTemperatureReport(rd: Reading, v: string)
    requires |v| > 0 && '\n' !in v
    requires forall sp :: PyInt.WellSpelled(sp) ==> PyInt.Text(sp) != PyStr.RStrip(v, 'K')
    ensures HandleLine(rd, Report(TemperatureKey, v)) == Decoded(rd, Some(BadTemperature(v)))
  {
    ReportMatches(TemperatureKey, v);
    var t := PyStr.RStrip(v, 'K');
    if PyInt.ParseInt(t).Some? {
      var sp := PyInt.ParseIntSound(t, PyInt.ParseInt(t).value);
      assert false;
    }
  }

  /** `Location: a, b` records `[a, b]`; a report without `", "` records a
      single component and raises when its label is formatted. */
  lemma LocationReport(rd: Reading, parts: seq<string>)
    requires |parts| >= 1
    requires forall k :: 0 <= k < |parts| ==> !PyStr.Contains(parts[k], PyStr.CommaSpace)
    requires var v := PyStr.Join(parts, PyStr.CommaSpace); |v| > 0 && '\n' !in v
    ensures HandleLine(rd, Report(LocationKey, PyStr.Join(parts, PyStr.CommaSpace)))
         == Decoded(rd.(location := Reported(parts)),
                    if |parts| < 2 then Some(ShortLocation(parts)) else None)
  {
    var v := PyStr.Join(parts, PyStr.CommaSpace);
    ReportMatches(LocationKey, v);
    PyStr.SplitJoinCommaSpace(parts);
  }

  /** The four known keys are well-formed keys, so their reports match. */
  lemma ReportMatches(key: string, v: string)
    requires key in {StatusKey, TemperatureKey, PeriodKey, LocationKey}
    requires |v| > 0 && '\n' !in v
    ensures Match(Report(key, v)) == Some((key, v))
  {
    assert IsKey(key);
    MatchIff(Report(key, v), key, v);
  }

  /** The outcome of a sequence of lines: the state after them, how many
      lines were handled, and the exception that stopped the sequence. */
  datatype Applied = Applied(reading: Reading, consumed: nat, fault: Option<Fault>)

  /** Hand the lines to `child_stdout_line_cb` in order; an exception stops
      the sequence after the line that raised it. */
  function ApplyLines(rd: Reading, lines: seq<string>): (r: Applied)
    ensures r.consumed <= |lines|
    ensures r.fault.None? ==> r.consumed == |lines|
    ensures r.fault.Some? ==> r.consumed > 0
    decreases |lines|
  {
    if lines == [] then Applied(rd, 0, None)
    else
      var d := HandleLine(rd, lines[0]);
      if d.fault.Some? then Applied(d.reading, 1, d.fault)
      else
        var a := ApplyLines(d.reading, lines[1..]);
        Applied(a.reading, a.consumed + 1, a.fault)
  }

  /** Handing over `xs + ys` is handing over `xs` and then, unless `xs`
      raised, `ys`. */
  lemma {:induction false} ApplyLinesAppend(rd: Reading, xs: seq<string>, ys: seq<string>)
    ensures ApplyLines(rd, xs + ys)
         == (var a := ApplyLines(rd, xs);
             if a.fault.Some? then a
             else var b := ApplyLines(a.reading, ys); Applied(b.reading, |xs| + b.consumed, b.fault))
    decreases |xs|
  {
    if xs == [] {
      assert xs + ys == ys;
    } else {
      assert (xs + ys)[0] == xs[0];
      assert (xs + ys)[1..] == xs[1..] + ys;
      var d := HandleLine(rd, xs[0]);
      if d.fault.None? {
        ApplyLinesAppend(d.reading, xs[1..], ys);
      }
    }
  }

  /** Handing over one more line after a quiet prefix. */
  lemma ApplyLinesSnoc(rd: Reading, lines: seq<string>, k: nat)
    requires k < |lines|
    requires ApplyLines(rd, lines[..k]).fault.None?
    ensures var d := HandleLine(ApplyLines(rd, lines[..k]).reading, lines[k]);
            ApplyLines(rd, lines[..k + 1]) == Applied(d.reading, k + 1, d.fault)
  {
    assert lines[..k + 1] == lines[..k] + [lines[k]];
    ApplyLinesAppend(rd, lines[..k], [lines[k]]);
  }

  /** The line that raises is the last one handled. */
  lemma ApplyLinesStopsAt(rd: Reading, lines: seq<string>, k: nat)
    requires k < |lines|
    requires ApplyLines(rd, lines[..k]).fault.None?
    requires HandleLine(ApplyLines(rd, lines[..k]).reading, lines[k]).fault.Some?
    ensures ApplyLines(rd, lines) == ApplyLines(rd, lines[..k + 1])
  {
    ApplyLinesSnoc(rd, lines, k);
    RaisedPrefix(rd, lines, k + 1);
  }

  /** A prefix that raised decides the outcome of all the lines. */
  lemma RaisedPrefix(rd: Reading, lines: seq<string>, n: nat)
    requires n <= |lines| && ApplyLines(rd, lines[..n]).fault.Some?
    ensures ApplyLines(rd, lines) == ApplyLines(rd, lines[..n])
  {
    assert lines == lines[..n] + lines[n..];
    RaisedIgnoresRest(rd, lines[..n], lines[n..]);
  }

  /** Lines after one that raised are never handled. */
  lemma RaisedIgnoresRest(rd: Reading, xs: seq<string>, ys: seq<string>)
    requires ApplyLines(rd, xs).fault.Some?
    ensures ApplyLines(rd, xs + ys) == ApplyLines(rd, xs)
  {
    ApplyLinesAppend(rd, xs, ys);
  }
}

=== FILE: pyint.dfy ===
/** Python's `int(s, 10)` on a string and its inverse `str(n)`, restricted
    to ASCII text (the worker runs under the C locale). */
module PyInt {
  import opened Wrappers

  predicate IsDigit(c: char) { '0' <= c <= '9' }

  /** The characters `int()` skips around a number: space and `\t` through
      `\r` (tab, newline, vertical tab, form feed, carriage return). */
  predicate IsSpace(c: char) { c == ' ' || '\t' <= c <= '\r' }

  predicate AllDigits(d: string) { forall i :: 0 <= i < |d| ==> IsDigit(d[i]) }

  predicate AllSpace(w: string) { forall i :: 0 <= i < |w| ==> IsSpace(w[i]) }

  /** `s` without its leading white space: a suffix of `s`. */
  function LStripSpace(s: string): (r: string)
    ensures |r| <= |s| && r == s[|s| - |r|..]
    ensures |r| == 0 || !IsSpace(r[0])
    decreases |s|
  {
    if |s| > 0 && IsSpace(s[0]) then LStripSpace(s[1..]) else s
  }

  /** What `LStripSpace` removes is all white space. */
  lemma {:induction false} LStripSpaceSkips(s: string)
    ensures AllSpace(s[..|s| - |LStripSpace(s)|])
    decreases |s|
  {
    if |s| > 0 && IsSpace(s[0]) {
      var r := LStripSpace(s);
      LStripSpaceSkips(s[1..]);
      assert s[..|s| - |r|] == [s[0]] + s[1..][..|s| - 1 - |r|];
    }
  }

  /** `s` without its trailing white space: a prefix of `s`. */
  function RStripSpace(s: string): (r: string)
    ensures r <= s
    ensures |r| == 0 || !IsSpace(r[|r| - 1])
    ensures AllSpace(s[|r|..])
    decreases |s|
  {
    if |s| > 0 && IsSpace(s[|s| - 1]) then RStripSpace(s[..|s| - 1]) else s
  }

  /** `s.strip()` restricted to the white space `int()` skips. */
  function StripSpace(s: string): string {
    RStripSpace(LStripSpace(s))
  }

  /** The digits of a base-10 literal as `int()` accepts them: ASCII digits,
      with single underscores allowed between two digits. */
  predicate DigitPart(d: string) {
    && |d| > 0
    && IsDigit(d[0])
    && IsDigit(d[|d| - 1])
    && (forall i :: 0 <= i < |d| ==> IsDigit(d[i]) || d[i] == '_')
    && (forall i :: 0 <= i < |d| - 1 ==> d[i] == '_' ==> IsDigit(d[i + 1]))
  }

  /** The digits of `d` with the underscores dropped. */
  function DropUnderscores(d: string): (r: string)
    requires forall i :: 0 <= i < |d| ==> IsDigit(d[i]) || d[i] == '_'
    ensures AllDigits(r) && |r| <= |d|
  {
    if |d| == 0 then ""
    else (if d[0] == '_' then "" else [d[0]]) + DropUnderscores(d[1..])
  }

  function DigitValue(c: char): nat
    requires IsDigit(c)
  {
    c as int - '0' as int
  }

  /** The value of a string of decimal digits, most significant first. */
  function Value(d: string): nat
    requires AllDigits(d)
  {
    if |d| == 0 then 0 else Value(d[..|d| - 1]) * 10 + DigitValue(d[|d| - 1])
  }

  /** `int(s, 10)`: `None` where Python raises `ValueError`. */
  function ParseInt(s: string): Option<int>
  {
    ParseLiteral(StripSpace(s))
  }

  /** The number a sign and a magnitude denote. */
  function Signed(sign: string, v: nat): int {
    if sign == "-" then -(v as int) else v
  }

  /** An optional sign followed by the digits of a literal. */
  function ParseLiteral(t: string): Option<int>
  {
    if |t| > 0 && (t[0] == '+' || t[0] == '-') then
      if DigitPart(t[1..]) then Some(Signed(t[..1], Value(DropUnderscores(t[1..]))))
      else None
    else if DigitPart(t) then Some(Value(DropUnderscores(t)))
    else None
  }

  function DigitChar(d: nat): (c: char)
    requires d < 10
    ensures IsDigit(c) && DigitValue(c) == d
  {
    ('0' as int + d) as char
  }

  /** `str(n)` for a natural number. */
  function NatToDecimal(n: nat): (r: string)
    ensures |r| > 0 && AllDigits(r)
    decreases n
  {
    if n < 10 then [DigitChar(n)] else NatToDecimal(n / 10) + [DigitChar(n % 10)]
  }

  /** `str(n)`. */
  function IntToDecimal(n: int): (r: string)
    ensures |r| > 0 && IsDigit(r[|r| - 1])
  {
    if n < 0 then "-" + NatToDecimal(-n) else NatToDecimal(n)
  }

  /** The digits `str(n)` prints evaluate back to `n`. */
  lemma {:induction false} ValueOfDecimal(n: nat)
    ensures Value(NatToDecimal(n)) == n
    decreases n
  {
    if n >= 10 {
      var d := NatToDecimal(n);
      assert d[..|d| - 1] == NatToDecimal(n / 10);
      ValueOfDecimal(n / 10);
    }
  }

  /** Underscore-free digits are left alone by `DropUnderscores`. */
  lemma {:induction false} DropNoUnderscores(d: string)
    requires AllDigits(d)
    ensures DropUnderscores(d) == d
    decreases |d|
  {
    if |d| > 0 {
      DropNoUnderscores(d[1..]);
      assert [d[0]] + d[1..] == d;
    }
  }

  lemma {:induction false} LStripPadded(w: string, t: string)
    requires AllSpace(w)
    requires |t| == 0 || !IsSpace(t[0])
    ensures LStripSpace(w + t) == t
    decreases |w|
  {
    if |w| > 0 {
      assert (w + t)[1..] == w[1..] + t;
      LStripPadded(w[1..], t);
    } else {
      assert w + t == t;
    }
  }

  lemma {:induction false} RStripPadded(t: string, w: string)
    requires AllSpace(w)
    requires |t| == 0 || !IsSpace(t[|t| - 1])
    ensures RStripSpace(t + w) == t
    decreases |w|
  {
    if |w| > 0 {
      var u := t + w;
      assert u[..|u| - 1] == t + w[..|w| - 1];
      RStripPadded(t, w[..|w| - 1]);
    } else {
      assert t + w == t;
    }
  }

  /** White space around a literal is ignored. */
  lemma StripPadded(w1: string, t: string, w2: string)
    requires AllSpace(w1) && AllSpace(w2)
    requires |t| > 0 && !IsSpace(t[0]) && !IsSpace(t[|t| - 1])
    ensures StripSpace(w1 + t + w2) == t
  {
    assert w1 + t + w2 == w1 + (t + w2);
    LStripPadded(w1, t + w2);
    RStripPadded(t, w2);
  }

  /** A text `int(s, 10)` accepts, in its four parts: white space, an
      optional sign, the digits (with single underscores between digits)
      and white space. */
  datatype Spelling = Spelling(lead: string, sign: string, digits: string, trail: string)

  predicate WellSpelled(sp: Spelling) {
    && AllSpace(sp.lead) && AllSpace(sp.trail)
    && IsSign(sp.sign)
    && DigitPart(sp.digits)
  }

  function Text(sp: Spelling): string {
    sp.lead + sp.sign + sp.digits + sp.trail
  }

  /** The number a spelling denotes. */
  function SpelledValue(sp: Spelling): int
    requires WellSpelled(sp)
  {
    Signed(sp.sign, Value(DropUnderscores(sp.digits)))
  }

  predicate IsSign(sign: string) { sign == "" || sign == "+" || sign == "-" }

  lemma UnsignedLiteral(d: string)
    requires DigitPart(d)
    ensures ParseLiteral(d) == Some(Signed("", Value(DropUnderscores(d))))
  {
    assert d[0] != '+' && d[0] != '-';
  }

  lemma SignLiteral(c: char, d: string)
    requires (c == '+' || c == '-') && DigitPart(d)
    ensures ParseLiteral([c] + d) == Some(Signed([c], Value(DropUnderscores(d))))
  {
    var t := [c] + d;
    assert t[0] == c && t[1..] == d && t[..1] == [c];
  }

  /** A sign and digits make a literal that reads as the signed value. */
  lemma SignedLiteral(sign: string, d: string)
    requires IsSign(sign) && DigitPart(d)
    ensures ParseLiteral(sign + d) == Some(Signed(sign, Value(DropUnderscores(d))))
  {
    if sign == "" {
      assert sign + d == d;
      UnsignedLiteral(d);
    } else {
      var c := sign[0];
      assert sign == [c];
      SignLiteral(c, d);
    }
  }

  /** ... and that starts and ends outside the white space. */
  lemma LiteralEnds(sign: string, d: string)
    requires IsSign(sign) && DigitPart(d)
    ensures var t := sign + d; |t| > 0 && !IsSpace(t[0]) && !IsSpace(t[|t| - 1])
  {
    var t := sign + d;
    assert t[|t| - 1] == d[|d| - 1];
    assert t[0] == if sign == "" then d[0] else sign[0];
  }

  /** Every well-formed spelling is accepted, with the value it denotes:
      `" +045 "` is 45 and `"4_500"` is 4500. */
  lemma ParseIntComplete(sp: Spelling)
    requires WellSpelled(sp)
    ensures ParseInt(Text(sp)) == Some(SpelledValue(sp))
  {
    var t := sp.sign + sp.digits;
    assert Text(sp) == sp.lead + t + sp.trail;
    LiteralEnds(sp.sign, sp.digits);
    StripPadded(sp.lead, t, sp.trail);
    SignedLiteral(sp.sign, sp.digits);
  }

  /** The length of the sign a literal starts with: 0 or 1. */
  function SignLength(t: string): (k: nat)
    ensures k <= |t|
  {
    if |t| > 0 && (t[0] == '+' || t[0] == '-') then 1 else 0
  }

  /** Cutting at any index and gluing back gives the text. */
  lemma SliceSplit(s: string, k: nat)
    requires k <= |s|
    ensures s == s[..k] + s[k..]
  {
  }

  /** A literal `ParseLiteral` accepts is a sign followed by digits. */
  lemma LiteralSound(t: string, n: int)
    requires ParseLiteral(t) == Some(n)
    ensures var k := SignLength(t);
            && IsSign(t[..k]) && DigitPart(t[k..])
            && n == Signed(t[..k], Value(DropUnderscores(t[k..])))
  {
    if SignLength(t) == 1 {
      assert t[..1] == [t[0]];
    } else {
      assert t[..0] == "" && t[0..] == t;
    }
  }

  /** Conversely, whatever `int(s, 10)` accepts is a well-formed spelling
      of the value it returns: `"45x"`, `"4.5"`, `"4 500"`, `"--5"` and
      `"4__5"` are all rejected. The spelling is the white space `strip`
      removes on each side, then a leading sign if there is one, then the
      rest. */
  lemma ParseIntSound(s: string, n: int) returns (sp: Spelling)
    requires ParseInt(s) == Some(n)
    ensures WellSpelled(sp) && Text(sp) == s && SpelledValue(sp) == n
  {
    var l := LStripSpace(s);
    var t := RStripSpace(l);
    LStripSpaceSkips(s);
    var w1, w2 := Unstrip(s, l, t);
    sp := Spelled(w1, t, w2, n);
  }

  /** A text is what `strip` kept of it with the white space it removed on
      either side. */
  lemma Unstrip(s: string, l: string, t: string) returns (w1: string, w2: string)
    requires |l| <= |s| && l == s[|s| - |l|..] && AllSpace(s[..|s| - |l|])
    requires t <= l && AllSpace(l[|t|..])
    ensures AllSpace(w1) && AllSpace(w2) && s == w1 + t + w2
  {
    w1, w2 := s[..|s| - |l|], l[|t|..];
    SliceSplit(s, |s| - |l|);
    SliceSplit(l, |t|);
    ConcatExpand(s, w1, l, t, w2);
  }

  /** Substituting `t + e` for `l` in `a + l`. */
  lemma ConcatExpand(s: string, a: string, l: string, t: string, e: string)
    requires s == a + l && l == t + e
    ensures s == a + t + e
  {
  }

  /** A literal between two runs of white space, cut into its spelling. */
  lemma Spelled(w1: string, t: string, w2: string, n: int) returns (sp: Spelling)
    requires AllSpace(w1) && AllSpace(w2) && ParseLiteral(t) == Some(n)
    ensures WellSpelled(sp) && Text(sp) == w1 + t + w2 && SpelledValue(sp) == n
  {
    var k := SignLength(t);
    LiteralSound(t, n);
    sp := Spelling(w1, t[..k], t[k..], w2);
    SliceSplit(t, k);
    ConcatRegroup(w1, t, t[..k], t[k..], w2);
  }

  /** Concatenation regrouped around a middle part `t == b + c`. */
  lemma ConcatRegroup(a: string, t: string, b: string, c: string, d: string)
    requires t == b + c
    ensures a + b + c + d == a + t + d
  {
  }

  /** `int(s, 10)` returns `n` exactly when `s` spells `n`. */
  lemma ParseIntIff(s: string, n: int)
    ensures ParseInt(s) == Some(n) <==> exists sp :: WellSpelled(sp) && Text(sp) == s && SpelledValue(sp) == n
  {
    if ParseInt(s) == Some(n) {
      var sp := ParseIntSound(s, n);
    }
    if exists sp :: WellSpelled(sp) && Text(sp) == s && SpelledValue(sp) == n {
      var sp :| WellSpelled(sp) && Text(sp) == s && SpelledValue(sp) == n;
      ParseIntComplete(sp);
    }
  }

  /** Round trip: `int(str(n), 10) == n`, with any white space around the
      digits. */
  lemma ParseIntRoundTrip(w1: string, n: int, w2: string)
    requires AllSpace(w1) && AllSpace(w2)
    ensures ParseInt(w1 + IntToDecimal(n) + w2) == Some(n)
  {
    var sp := DecimalSpelling(w1, n, w2);
    ParseIntComplete(sp);
  }

  /** `str(n)` between two runs of white space is a spelling of `n`: a
      minus sign for a negative `n`, then the digits of `|n|`. */
  lemma DecimalSpelling(w1: string, n: int, w2: string) returns (sp: Spelling)
    requires AllSpace(w1) && AllSpace(w2)
    ensures sp.lead == w1 && sp.trail == w2
    ensures WellSpelled(sp) && Text(sp) == w1 + IntToDecimal(n) + w2 && SpelledValue(sp) == n
  {
    var m: nat := if n < 0 then -n else n;
    var d := NatToDecimal(m);
    var sign := if n < 0 then "-" else "";
    ValueOfDecimal(m);
    DropNoUnderscores(d);
    DigitsArePart(d);
    assert IntToDecimal(n) == sign + d;
    sp := Spelling(w1, sign, d, w2);
    ConcatRegroup(w1, IntToDecimal(n), sign, d, w2);
  }

  /** Plain digits are a valid literal. */
  lemma DigitsArePart(d: string)
    requires |d| > 0 && AllDigits(d)
    ensures DigitPart(d)
  {
  }

  /** Text without a single ASCII digit is never a number. */
  lemma NoDigitNoInt(s: string)
    requires forall i :: 0 <= i < |s| ==> !IsDigit(s[i])
    ensures ParseInt(s) == None
  {
    AcceptedHasDigit(s);
  }

  /** Whatever `int()` accepts holds at least one ASCII digit. */
  lemma AcceptedHasDigit(s: string)
    ensures ParseInt(s).Some? ==> exists i :: 0 <= i < |s| && IsDigit(s[i])
  {
    if ParseInt(s).Some? {
      var sp := ParseIntSound(s, ParseInt(s).value);
      var k := |sp.lead| + |sp.sign|;
      assert s[k] == sp.digits[0];
    }
  }
}

=== FILE: pystr.dfy ===
/** The Python `str` operations the status icon applies to the child's
    output, over `string` (that is, `seq<char>`). */
module PyStr {
  import opened Wrappers

  /** `s.partition(c)` for a one-character separator: the text before the
      first `c`, the separator (empty when `c` does not occur) and the text
      after it. */
  function Partition(s: string, c: char): (r: (string, string, string))
    ensures c !in s ==> r == (s, "", "")
    ensures c in s ==> r.1 == [c] && r.0 + [c] + r.2 == s && c !in r.0
    decreases |s|
  {
    if |s| == 0 then (s, "", "")
    else if s[0] == c then ("", [c], s[1..])
    else
      var (a, b, d) := Partition(s[1..], c);
      assert s == [s[0]] + s[1..];
      ([s[0]] + a, b, d)
  }

  /** Partition splits at the FIRST occurrence of the separator. */
  lemma {:induction false} PartitionAt(a: string, c: char, b: string)
    requires c !in a
    ensures Partition(a + [c] + b, c) == (a, [c], b)
    decreases |a|
  {
    var s := a + [c] + b;
    if a == [] {
      assert s == [c] + b;
    } else {
      assert s[0] == a[0];
      assert s[1..] == a[1..] + [c] + b;
      PartitionAt(a[1..], c, b);
      assert [a[0]] + a[1..] == a;
    }
  }

  /** `pat` occurs in `s` starting at index `i`. */
  predicate OccursAt(s: string, pat: string, i: nat) {
    i + |pat| <= |s| && s[i..i + |pat|] == pat
  }

  /** `pat in s`, Python's substring test. */
  predicate Contains(s: string, pat: string) {
    exists i: nat | i <= |s| :: OccursAt(s, pat, i)
  }

  /** `s.find(pat, i)`: the first index at or after `i` where `pat` occurs. */
  function FindFrom(s: string, pat: string, i: nat): (r: Option<nat>)
    requires i <= |s|
    ensures r.Some? ==> i <= r.value && OccursAt(s, pat, r.value)
    ensures forall j: nat :: i <= j && (r.None? || j < r.value) ==> !OccursAt(s, pat, j)
    decreases |s| - i
  {
    if OccursAt(s, pat, i) then Some(i)
    else if i == |s| then None
    else FindFrom(s, pat, i + 1)
  }

  /** `sep.join(parts)`. */
  function Join(parts: seq<string>, sep: string): string
  {
    if |parts| == 0 then ""
    else if |parts| == 1 then parts[0]
    else parts[0] + sep + Join(parts[1..], sep)
  }

  /** `s.split(sep)` for a non-empty separator: the pieces between the
      occurrences of `sep` found scanning left to right. Joining the pieces
      gives `s` back, and no piece contains the separator. */
  function Split(s: string, sep: string): (parts: seq<string>)
    requires |sep| > 0
    ensures |parts| >= 1
    ensures Join(parts, sep) == s
    ensures forall k :: 0 <= k < |parts| ==> !Contains(parts[k], sep)
    decreases |s|
  {
    match FindFrom(s, sep, 0)
    case None => [s]
    case Some(i) =>
      var tail := Split(s[i + |sep|..], sep);
      var parts := [s[..i]] + tail;
      assert s[..i] + sep + s[i + |sep|..] == s by {
        assert s[i..i + |sep|] == sep;
        assert s == s[..i] + s[i..i + |sep|] + s[i + |sep|..];
      }
      assert parts[1..] == tail;
      assert !Contains(s[..i], sep) by {
        forall j: nat | OccursAt(s[..i], sep, j)
          ensures false
        {
          assert s[..i][j..j + |sep|] == s[j..j + |sep|];
          assert OccursAt(s, sep, j);
        }
      }
      parts
  }

  /** The separator the location report uses between its two components. */
  const CommaSpace := ", "

  /** In `p + ", " + rest` the first `", "` is the one after `p`, when `p`
      holds none: an earlier one would start inside `p` or at its last
      character, which would need a space where the separator has a comma. */
  lemma FirstCommaSpaceAt(p: string, rest: string)
    requires !Contains(p, CommaSpace)
    ensures FindFrom(p + CommaSpace + rest, CommaSpace, 0) == Some(|p|)
  {
    var s := p + CommaSpace + rest;
    assert OccursAt(s, CommaSpace, |p|) by {
      assert s[|p|..|p| + 2] == CommaSpace;
    }
    forall j: nat | j < |p|
      ensures !OccursAt(s, CommaSpace, j)
    {
      if j + 2 <= |p| {
        assert p[j..j + 2] == s[j..j + 2];
        assert !OccursAt(p, CommaSpace, j);
      } else {
        assert s[j + 1] == ',';
      }
    }
  }

  /** Splitting on `", "` undoes joining with it, as long as no piece holds
      the separator itself. */
  lemma {:induction false} SplitJoinCommaSpace(parts: seq<string>)
    requires |parts| >= 1
    requires forall k :: 0 <= k < |parts| ==> !Contains(parts[k], CommaSpace)
    ensures Split(Join(parts, CommaSpace), CommaSpace) == parts
    decreases |parts|
  {
    var s := Join(parts, CommaSpace);
    if |parts| == 1 {
      assert s == parts[0];
    } else {
      var rest := Join(parts[1..], CommaSpace);
      assert s == parts[0] + CommaSpace + rest;
      FirstCommaSpaceAt(parts[0], rest);
      assert s[|parts[0]| + 2..] == rest;
      assert s[..|parts[0]|] == parts[0];
      SplitJoinCommaSpace(parts[1..]);
      assert [parts[0]] + parts[1..] == parts;
    }
  }

  /** `s.rstrip(c)` for a single character: `s` without its trailing run of
      `c`. */
  function RStrip(s: string, c: char): (r: string)
    ensures r <= s
    ensures forall i :: |r| <= i < |s| ==> s[i] == c
    ensures |r| == 0 || r[|r| - 1] != c
    decreases |s|
  {
    if |s| > 0 && s[|s| - 1] == c then RStrip(s[..|s| - 1], c) else s
  }

  /** `s` followed by any number of copies of `c` strips back to `s` when
      `s` does not itself end in `c`. */
  lemma {:induction false} RStripPadding(s: string, c: char, n: nat)
    requires |s| == 0 || s[|s| - 1] != c
    ensures RStrip(s + Repeat(c, n), c) == s
    decreases n
  {
    if n == 0 {
      assert s + Repeat(c, 0) == s;
    } else {
      var t := s + Repeat(c, n);
      assert t[|t| - 1] == c;
      assert t[..|t| - 1] == s + Repeat(c, n - 1);
      RStripPadding(s, c, n - 1);
    }
  }

  /** `c * n` in Python. */
  function Repeat(c: char, n: nat): (r: string)
    ensures |r| == n && forall i :: 0 <= i < n ==> r[i] == c
  {
    if n == 0 then "" else Repeat(c, n - 1) + [c]
  }
}

=== FILE: session.dfy ===
/** The icon driven by its event loop: each event is one callback the
    loop dispatches. Over any run, the stderr text is accounted for, the
    suspend-timer slot stays in step with the loop's sources, and only
    stdout reports change the recorded state.

    A firing timer is dispatched to the corrected `TimerFires`, which
    clears the slot; `Run` is therefore the program with that fix applied.
    The firing as written is `Control.TimerFiresAsWritten`. */
module Session {
  import opened Lines
  import opened StatusIcon
  import opened Control

  datatype Event =
    | Data(stream: Stream, chunk: string)          // a pipe was readable and `chunk` was read
    | SuspendClicked(minutes: nat, now: int)        // a "Suspend for" menu item
    | TimerFired                                    // the suspend timer came due
    | ToggleClicked                                 // the status icon was activated
    | ToggleItemActivated(active: bool)             // the "Enabled" item, with its new state

  /** One dispatch. A stdout callback that raises is dropped by the event
      loop, so the pipe is not read again. The timer fires as corrected. */
  function Step(s: Icon, e: Event): Icon
  {
    match e
    case Data(Stdout, chunk) =>
      if !s.stdoutWatched then s
      else
        var f := Feed(s, Stdout, chunk);
        if f.fault.Some? then f.state.(stdoutWatched := false) else f.state
    case Data(Stderr, chunk) => Feed(s, Stderr, chunk).state
    case SuspendClicked(minutes, now) => SuspendCb(s, minutes, now)
    case TimerFired => TimerFires(s)
    case ToggleClicked => ToggleCb(s)
    case ToggleItemActivated(active) => ToggleItemCb(s, active)
  }

  function Run(s: Icon, events: seq<Event>): Icon
    decreases |events|
  {
    if events == [] then s else Run(Step(s, events[0]), events[1..])
  }

  /** The text an event carries from the child's stderr. */
  function StderrOf(e: Event): string {
    match e
    case Data(Stderr, chunk) => chunk
    case _ => ""
  }

  /** All the text the child wrote to stderr during the events. */
  function StderrText(events: seq<Event>): string
    decreases |events|
  {
    if events == [] then "" else StderrOf(events[0]) + StderrText(events[1..])
  }

  predicate IsControl(e: Event) { !e.Data? }

  lemma StepAccountsStderr(s: Icon, e: Event)
    ensures Step(s, e).errors + Step(s, e).errBuf == s.errors + s.errBuf + StderrOf(e)
  {
    match e
    case Data(Stdout, chunk) =>
      StdoutRouting(s, chunk);
    case Data(Stderr, chunk) =>
      StderrRouting(s, chunk);
      ConcatAssoc3(s.errors, s.errBuf, chunk);
    case SuspendClicked(_, _) =>
    case TimerFired =>
    case ToggleClicked =>
    case ToggleItemActivated(_) =>
  }

  /** Nothing written to stderr is lost: the complete lines collected in
      `errors` followed by the buffered fragment are exactly the text the
      child wrote, in order. */
  lemma {:induction false} StderrAccounted(s: Icon, events: seq<Event>)
    ensures Run(s, events).errors + Run(s, events).errBuf == s.errors + s.errBuf + StderrText(events)
    decreases |events|
  {
    if events != [] {
      var e := events[0];
      var s1 := Step(s, e);
      StepAccountsStderr(s, e);
      StderrAccounted(s1, events[1..]);
      ConcatAssoc3(s.errors + s.errBuf, StderrOf(e), StderrText(events[1..]));
    }
  }

  lemma StepKeepsSlotLive(s: Icon, e: Event)
    requires SlotLive(s)
    ensures SlotLive(Step(s, e))
  {
    match e
    case Data(Stdout, chunk) =>
      StdoutRouting(s, chunk);
    case Data(Stderr, chunk) =>
      StderrRouting(s, chunk);
    case SuspendClicked(_, _) =>
    case TimerFired =>
    case ToggleClicked =>
    case ToggleItemActivated(_) =>
  }

  /** The suspend-timer slot names exactly the timer source the event
      loop holds, after any run: never more than one pending re-enable,
      and never a stale id in the slot. */
  lemma {:induction false} RunKeepsSlotLive(s: Icon, events: seq<Event>)
    requires SlotLive(s)
    ensures SlotLive(Run(s, events))
    decreases |events|
  {
    if events != [] {
      StepKeepsSlotLive(s, events[0]);
      RunKeepsSlotLive(Step(s, events[0]), events[1..]);
    }
  }

  /** Toggles, suspends and timers only send requests: without stdout
      data the recorded state never changes. */
  lemma {:induction false} ControlIsRequestOnly(s: Icon, events: seq<Event>)
    requires forall i :: 0 <= i < |events| ==> IsControl(events[i])
    ensures Run(s, events).reading == s.reading
    decreases |events|
  {
    if events != [] {
      assert IsControl(events[0]);
      ControlIsRequestOnly(Step(s, events[0]), events[1..]);
    }
  }

  /** The corrected exit path reports every character the child wrote to
      stderr, whatever the chunking, when the child fails. */
  lemma FailureReportsAllStderr(events: seq<Event>, status: WaitStatus, drained: string)
    requires status != Exited(0)
    ensures ChildExited(Run(Init(), events), status, drained)
         == Failed(FailureMarkup(StderrText(events) + drained), 255)
  {
    var s := Run(Init(), events);
    StderrAccounted(Init(), events);
    assert s.errors + s.errBuf == StderrText(events);
  }

  /** As written, an unterminated error message that was already read is
      missing from the report. For instance the child writes "fatal error"
      without a newline, the read callback buffers it, the child exits with
      code 1 and the report is empty. */
  lemma LostStderrFragment(f: string, code: nat)
    requires NoNewline(f) && code != 0
    ensures var s := Run(Init(), [Data(Stderr, f)]);
            && ChildExitedAsWritten(s, Exited(code), "") == Failed(FailureMarkup(""), 255)
            && ChildExited(s, Exited(code), "") == Failed(FailureMarkup(f), 255)
  {
    var s0 := Init();
    var s := Feed(s0, Stderr, f).state;
    assert Run(s0, [Data(Stderr, f)]) == Run(s, []) == s;
    SplitJoined([], f);
    assert Joined([]) + f == s0.errBuf + f;
    assert s.errors == "" && s.errBuf == f;
  }
}

=== FILE: statestore.dfy ===
/** The status icon's mirror of what the child last reported: enabled
    flag, colour temperature, period and location, with their setters and
    the `is_enabled` getter (display side effects left out). */
module StateStore {

  /** The recorded location: the float pair `(0.0, 0.0)` the icon starts
      with, or the list of strings a `Location:` report was split into. */
  datatype Location = Origin | Reported(parts: seq<string>)

  datatype Reading = Reading(
    status: bool,
    temperature: int,
    period: string,
    location: Location)

  /** The values recorded before the child has reported anything. */
  function Initial(): (r: Reading)
    ensures !IsEnabled(r) && r.temperature == 0 && r.period == "Unknown" && r.location == Origin
  {
    Reading(false, 0, "Unknown", Origin)
  }

  function IsEnabled(rd: Reading): bool { rd.status }

  function ChangeStatus(rd: Reading, status: bool): (r: Reading)
    ensures IsEnabled(r) == status
    ensures r.temperature == rd.temperature && r.period == rd.period && r.location == rd.location
  {
    rd.(status := status)
  }

  function ChangeTemperature(rd: Reading, temperature: int): (r: Reading)
    ensures r.temperature == temperature
    ensures r.status == rd.status && r.period == rd.period && r.location == rd.location
  {
    rd.(temperature := temperature)
  }

  function ChangePeriod(rd: Reading, period: string): (r: Reading)
    ensures r.period == period
    ensures r.status == rd.status && r.temperature == rd.temperature && r.location == rd.location
  {
    rd.(period := period)
  }

  function ChangeLocation(rd: Reading, location: Location): (r: Reading)
    ensures r.location == location
    ensures r.status == rd.status && r.temperature == rd.temperature && r.period == rd.period
  {
    rd.(location := location)
  }

  /** The setters behave as independent cells: a second write to the same
      field overwrites the first, and writes to different fields commute. */
  lemma SetterLaws(rd: Reading, b1: bool, b2: bool, t1: int, t2: int,
                    p1: string, p2: string, l1: Location, l2: Location)
    // A later write to the same field overwrites an earlier one.
    ensures ChangeStatus(ChangeStatus(rd, b1), b2) == ChangeStatus(rd, b2)
    ensures ChangeTemperature(ChangeTemperature(rd, t1), t2) == ChangeTemperature(rd, t2)
    ensures ChangePeriod(ChangePeriod(rd, p1), p2) == ChangePeriod(rd, p2)
    ensures ChangeLocation(ChangeLocation(rd, l1), l2) == ChangeLocation(rd, l2)
    // Writes to different fields commute.
    ensures ChangeTemperature(ChangeStatus(rd, b1), t1) == ChangeStatus(ChangeTemperature(rd, t1), b1)
    ensures ChangePeriod(ChangeStatus(rd, b1), p1) == ChangeStatus(ChangePeriod(rd, p1), b1)
    ensures ChangeLocation(ChangeStatus(rd, b1), l1) == ChangeStatus(ChangeLocation(rd, l1), b1)
    ensures ChangePeriod(ChangeTemperature(rd, t1), p1) == ChangeTemperature(ChangePeriod(rd, p1), t1)
    ensures ChangeLocation(ChangeTemperature(rd, t1), l1) == ChangeTemperature(ChangeLocation(rd, l1), t1)
    ensures ChangePeriod(ChangeLocation(rd, l1), p1) == ChangeLocation(ChangePeriod(rd, p1), l1)
    // Writing back the value already held changes nothing.
    ensures ChangeStatus(rd, IsEnabled(rd)) == rd
  {
  }
}

=== FILE: statusicon.dfy ===
/** The state of `RedshiftStatusIcon` that is not display: the recorded
    reading, the two stream buffers, the accumulated error text, the
    suspend-timer slot, the event loop's timer sources and a count of the
    toggle signals sent to the child. Also `child_data_cb`, which feeds a
    chunk read from one of the child's pipes, and `child_cb`, which
    classifies the child's exit. */
module StatusIcon {
  import opened Wrappers
  import opened StateStore
  import opened Lines
  import opened Protocol
  import PyStr

  datatype Stream = Stdout | Stderr

  /** A suspend timer: the event-loop source id `timeout_add_seconds`
      returned and the time, in seconds, at which it is due. */
  datatype Timer = Timer(source: nat, deadline: int)

  datatype Icon = Icon(
    reading: Reading,
    outBuf: string,         // input_buffer.buf: unterminated stdout text
    errBuf: string,         // error_buffer.buf: unterminated stderr text
    errors: string,         // complete stderr lines, each with its newline
    timer: Option<Timer>,   // suspend_timer
    armed: set<nat>,        // suspend-timer sources the event loop still holds
    nextSource: nat,        // the id the event loop hands out next
    stdoutWatched: bool,    // the event loop still watches the stdout pipe
    togglesSent: nat)       // SIGUSR1 signals sent to the child

  /** The icon right after construction. Source ids are numbered by the
      event loop; where the numbering starts is immaterial. */
  function Init(): (s: Icon)
    ensures s.reading == StateStore.Initial()
    ensures s.outBuf == "" && s.errBuf == "" && s.errors == ""
    ensures s.timer.None? && s.armed == {} && s.togglesSent == 0
  {
    Icon(StateStore.Initial(), "", "", "", None, {}, 1, true, 0)
  }

  /** The outcome of one `child_data_cb` call: the new state and the
      exception that ended it early, if any. */
  datatype Fed = Fed(state: Icon, fault: Option<Fault>)

  /** `child_data_cb` as a function of the chunk that was read. The chunk
      is appended to the stream's buffer and the buffer is cut into lines.
      Stdout lines go to the decoder, which may raise: the remaining lines
      then stay buffered. Stderr lines are appended to `errors`, each with
      its newline. */
  function Feed(s: Icon, stream: Stream, chunk: string): (r: Fed)
    ensures stream == Stderr ==> r.fault.None? && r.state.reading == s.reading && r.state.outBuf == s.outBuf
    ensures stream == Stdout ==> r.state.errors == s.errors && r.state.errBuf == s.errBuf
  {
    match stream
    case Stderr =>
      var split := SplitLines(s.errBuf + chunk);
      Fed(s.(errors := s.errors + Joined(split.0), errBuf := split.1), None)
    case Stdout =>
      var split := SplitLines(s.outBuf + chunk);
      Deliver(s, split.0, split.1)
  }

  /** Stdout lines handed to the decoder in order; what an exception leaves
      unhandled goes back into the buffer in front of the remainder. */
  function Deliver(s: Icon, lines: seq<string>, rest: string): Fed
  {
    var a := ApplyLines(s.reading, lines);
    Fed(s.(reading := a.reading, outBuf := Joined(lines[a.consumed..]) + rest), a.fault)
  }

  /** Stderr routing: every complete line is appended to `errors` with its
      newline, in order; nothing reaches the decoder; the collected text
      plus what stays buffered is exactly the old text plus the chunk; the
      buffer keeps no newline. */
  lemma StderrRouting(s: Icon, chunk: string)
    ensures var r := Feed(s, Stderr, chunk);
      && r.fault.None?
      && r.state == s.(errors := r.state.errors, errBuf := r.state.errBuf)
      && r.state.errors == s.errors + Joined(SplitLines(s.errBuf + chunk).0)
      && r.state.errors + r.state.errBuf == s.errors + (s.errBuf + chunk)
      && NoNewline(r.state.errBuf)
  {
    var split := SplitLines(s.errBuf + chunk);
    ConcatPrepend(s.errors, Joined(split.0), split.1, s.errBuf + chunk);
  }

  /** Stdout routing: the decoder receives the complete lines in order,
      up to and including one that raises; the errors are untouched; the
      lines handed over, each with its newline, followed by the new buffer
      are exactly the old buffer plus the chunk; without an exception the
      buffer keeps no newline. */
  lemma StdoutRouting(s: Icon, chunk: string)
    ensures var r := Feed(s, Stdout, chunk);
      var lines := SplitLines(s.outBuf + chunk).0;
      var a := ApplyLines(s.reading, lines);
      && r.state == s.(reading := r.state.reading, outBuf := r.state.outBuf)
      && r.state.reading == a.reading
      && r.fault == a.fault
      && Joined(lines[..a.consumed]) + r.state.outBuf == s.outBuf + chunk
      && (r.fault.None? ==> NoNewline(r.state.outBuf))
  {
    var split := SplitLines(s.outBuf + chunk);
    var a := ApplyLines(s.reading, split.0);
    ConsumedPrefix(split.0, a.consumed, split.1);
    if a.fault.None? {
      assert split.0[a.consumed..] == [];
    }
  }

  /** Prefixing both sides of `j + r == b` with `e`. */
  lemma ConcatPrepend(e: string, j: string, r: string, b: string)
    requires j + r == b
    ensures e + j + r == e + b
  {
  }

  /** The consumed lines and the kept text still add up to the buffer. */
  lemma ConsumedPrefix(lines: seq<string>, k: nat, rest: string)
    requires k <= |lines|
    ensures Joined(lines[..k]) + (Joined(lines[k..]) + rest) == Joined(lines) + rest
  {
    assert lines == lines[..k] + lines[k..];
    JoinedAppend(lines[..k], lines[k..]);
  }

  /** `child_data_cb` as the source writes it: a loop that partitions the
      buffer at its first newline until none is left, routing each line as
      it goes. It computes what `Feed` describes. */
  method ChildDataCb(s: Icon, stream: Stream, chunk: string) returns (r: Icon, fault: Option<Fault>)
    ensures Fed(r, fault) == Feed(s, stream, chunk)
  {
    var stdout := stream == Stdout;
    var buf := (if stdout then s.outBuf else s.errBuf) + chunk;
    ghost var lines := SplitLines(buf).0;
    ghost var rest := SplitLines(buf).1;
    ghost var k := 0;
    var reading := s.reading;
    var errors := s.errors;
    LoopStart(buf);
    while true
      invariant 0 <= k <= |lines|
      invariant buf == Joined(lines[k..]) + rest
      invariant stdout ==> errors == s.errors && ApplyLines(s.reading, lines[..k]) == Applied(reading, k, None)
      invariant !stdout ==> reading == s.reading && errors == s.errors + Joined(lines[..k])
      decreases |buf|
    {
      var (first, sep, last) := PyStr.Partition(buf, '\n');
      if sep == "" {
        break;
      }
      LoopStep(lines, rest, k);
      buf := last;
      if stdout {
        var d := HandleLine(reading, first);
        StdoutStep(s.reading, lines, k, reading);
        reading := d.reading;
        if d.fault.Some? {
          r := s.(reading := reading, outBuf := buf);
          fault := d.fault;
          FeedStdoutFault(s, chunk, k);
          return;
        }
      } else {
        StderrStep(lines, k);
        ConcatAssocLine(s.errors, Joined(lines[..k]), first);
        errors := errors + first + "\n";
      }
      k := k + 1;
    }
    LoopEnd(lines, rest, k);
    if stdout {
      r := s.(reading := reading, outBuf := buf);
      DeliverQuiet(s, lines, rest);
    } else {
      r := s.(errors := errors, errBuf := buf);
    }
    fault := None;
  }

  /** Without an exception every line is handled and only the remainder
      stays buffered. */
  lemma DeliverQuiet(s: Icon, lines: seq<string>, rest: string)
    requires ApplyLines(s.reading, lines).fault.None?
    ensures Deliver(s, lines, rest) == Fed(s.(reading := ApplyLines(s.reading, lines).reading, outBuf := rest), None)
  {
    var a := ApplyLines(s.reading, lines);
    assert lines[a.consumed..] == [];
    assert Joined(lines[a.consumed..]) + rest == rest;
  }

  lemma LoopStart(buf: string)
    ensures var lines := SplitLines(buf).0;
            lines[..0] == [] && buf == Joined(lines[0..]) + SplitLines(buf).1
  {
    var lines := SplitLines(buf).0;
    assert lines[0..] == lines;
  }

  /** One round of the loop: the partition yields the next line and leaves
      the joined text of the lines after it. */
  lemma LoopStep(lines: seq<string>, rest: string, k: nat)
    requires AllNoNewline(lines) && NoNewline(rest) && k <= |lines|
    requires PyStr.Partition(Joined(lines[k..]) + rest, '\n').1 != ""
    ensures k < |lines|
    ensures PyStr.Partition(Joined(lines[k..]) + rest, '\n') == (lines[k], "\n", Joined(lines[k + 1..]) + rest)
  {
    JoinedFirst(lines[k..], rest);
    assert lines[k..][1..] == lines[k + 1..];
  }

  /** When the partition finds no newline, every line has been routed. */
  lemma LoopEnd(lines: seq<string>, rest: string, k: nat)
    requires AllNoNewline(lines) && NoNewline(rest) && k <= |lines|
    requires PyStr.Partition(Joined(lines[k..]) + rest, '\n').1 == "" || k == |lines|
    ensures k == |lines| && lines[..k] == lines && Joined(lines[k..]) + rest == rest
  {
    if k < |lines| {
      LoopStep(lines, rest, k);
    }
    assert lines[k..] == [];
  }

  lemma StdoutStep(rd: Reading, lines: seq<string>, k: nat, reading: Reading)
    requires k < |lines|
    requires ApplyLines(rd, lines[..k]) == Applied(reading, k, None)
    ensures var d := HandleLine(reading, lines[k]);
            d.fault.None? ==> ApplyLines(rd, lines[..k + 1]) == Applied(d.reading, k + 1, None)
  {
    ApplyLinesSnoc(rd, lines, k);
  }

  /** A line that raises ends the whole sequence where `Feed` ends it. */
  lemma FeedStdoutFault(s: Icon, chunk: string, k: nat)
    requires var lines := SplitLines(s.outBuf + chunk).0;
             && k < |lines|
             && ApplyLines(s.reading, lines[..k]).fault.None?
             && HandleLine(ApplyLines(s.reading, lines[..k]).reading, lines[k]).fault.Some?
    ensures var lines := SplitLines(s.outBuf + chunk).0;
            var rest := SplitLines(s.outBuf + chunk).1;
            var d := HandleLine(ApplyLines(s.reading, lines[..k]).reading, lines[k]);
            Feed(s, Stdout, chunk) == Fed(s.(reading := d.reading, outBuf := Joined(lines[k + 1..]) + rest), d.fault)
  {
    var lines := SplitLines(s.outBuf + chunk).0;
    ApplyLinesSnoc(s.reading, lines, k);
    ApplyLinesStopsAt(s.reading, lines, k);
  }

  /** Associativity of appending one line and its newline. */
  lemma ConcatAssocLine(e: string, j: string, line: string)
    ensures e + j + line + "\n" == e + (j + line + "\n")
  {
  }

  lemma StderrStep(lines: seq<string>, k: nat)
    requires k < |lines|
    ensures Joined(lines[..k + 1]) == Joined(lines[..k]) + lines[k] + "\n"
  {
    assert lines[..k + 1] == lines[..k] + [lines[k]];
    JoinedAppend(lines[..k], [lines[k]]);
    assert Joined([lines[k]]) == lines[k] + "\n";
  }

  /** Chunk independence at the level of the callback: as long as the
      first call raised nothing, two reads leave the icon exactly as one
      read of the concatenated chunks would. */
  lemma FeedTwice(s: Icon, stream: Stream, a: string, b: string)
    requires Feed(s, stream, a).fault.None?
    ensures Feed(Feed(s, stream, a).state, stream, b) == Feed(s, stream, a + b)
  {
    match stream
    case Stderr => FeedTwiceStderr(s, a, b);
    case Stdout => FeedTwiceStdout(s, a, b);
  }

  lemma SplitAcross(buf: string, a: string, b: string)
    ensures SplitLines(buf + (a + b))
         == (SplitLines(buf + a).0 + SplitLines(SplitLines(buf + a).1 + b).0,
             SplitLines(SplitLines(buf + a).1 + b).1)
  {
    assert buf + a + b == buf + (a + b);
    ChunkIndependence(buf, a, b);
  }

  lemma FeedTwiceStderr(s: Icon, a: string, b: string)
    ensures Feed(Feed(s, Stderr, a).state, Stderr, b) == Feed(s, Stderr, a + b)
  {
    var l1 := SplitLines(s.errBuf + a).0;
    var r1 := SplitLines(s.errBuf + a).1;
    var l2 := SplitLines(r1 + b).0;
    SplitAcross(s.errBuf, a, b);
    JoinedAppend(l1, l2);
    ConcatAssoc3(s.errors, Joined(l1), Joined(l2));
  }

  /** Associativity of three-way concatenation. */
  lemma ConcatAssoc3(x: string, y: string, z: string)
    ensures x + y + z == x + (y + z)
  {
  }

  /** Delivering `xs + ys` is delivering `xs` quietly and then `ys`. */
  lemma DeliverAppend(s: Icon, xs: seq<string>, ys: seq<string>, rest: string)
    requires ApplyLines(s.reading, xs).fault.None?
    ensures Deliver(s, xs + ys, rest) == Deliver(s.(reading := ApplyLines(s.reading, xs).reading), ys, rest)
  {
    var a2 := ApplyLines(ApplyLines(s.reading, xs).reading, ys);
    ApplyLinesAppend(s.reading, xs, ys);
    SliceOfConcat(xs, ys, a2.consumed);
  }

  lemma FeedTwiceStdout(s: Icon, a: string, b: string)
    requires Feed(s, Stdout, a).fault.None?
    ensures Feed(Feed(s, Stdout, a).state, Stdout, b) == Feed(s, Stdout, a + b)
  {
    var l1, r1 := SplitLines(s.outBuf + a).0, SplitLines(s.outBuf + a).1;
    var l2, r2 := SplitLines(r1 + b).0, SplitLines(r1 + b).1;
    var rd := ApplyLines(s.reading, l1).reading;
    DeliverQuiet(s, l1, r1);
    var s1 := s.(reading := rd, outBuf := r1);
    assert Feed(s, Stdout, a).state == s1;
    assert Feed(s1, Stdout, b) == Deliver(s1, l2, r2);
    SplitAcross(s.outBuf, a, b);
    DeliverAppend(s, l1, l2, r2);
    assert Feed(s, Stdout, a + b) == Deliver(s.(reading := rd), l2, r2);
  }

  /** A suffix of `xs + ys` that starts inside `ys` is a suffix of `ys`. */
  lemma SliceOfConcat(xs: seq<string>, ys: seq<string>, n: nat)
    requires n <= |ys|
    ensures (xs + ys)[|xs| + n..] == ys[n..]
  {
  }

  /** How the child ended, as the child watch reports it. */
  datatype WaitStatus = Exited(code: nat) | Signaled(signal: nat)

  /** `Quit` leaves the main loop; `Failed` shows the error dialog with the
      given markup and ends the process with the given exit status. */
  datatype ExitOutcome = Quit | Failed(markup: string, exitStatus: nat)

  /** `sys.exit(-1)`, which the operating system truncates to one byte. */
  const FailureCode := -1

  function ExitByte(code: int): nat { code % 256 }

  /** The error dialog's markup around the collected error text. */
  function FailureMarkup(text: string): string {
    "<b>Failed to run Redshift</b>\n<i>" + text + "</i>"
  }

  /** `spawn_check_exit_status` accepts only a normal exit with code 0. */
  function Classify(status: WaitStatus, text: string): (r: ExitOutcome)
    ensures r.Quit? <==> status == Exited(0)
    ensures r.Failed? ==> r.exitStatus != 0 && r.markup == FailureMarkup(text)
  {
    if status == Exited(0) then Quit else Failed(FailureMarkup(text), ExitByte(FailureCode))
  }

  /** `child_cb` as written: the stderr text drained after the exit is
      appended to the complete lines already collected, and the fragment
      still held in the stderr buffer is left out. */
  function ChildExitedAsWritten(s: Icon, status: WaitStatus, drained: string): (r: ExitOutcome)
    ensures r.Quit? <==> status == Exited(0)
    ensures r.Failed? ==> r.exitStatus == 255 && r.markup == FailureMarkup(s.errors + drained)
  {
    Classify(status, s.errors + drained)
  }

  /** `child_cb` with the held stderr fragment reported too: the failure
      report carries all the text the child wrote to stderr. */
  function ChildExited(s: Icon, status: WaitStatus, drained: string): (r: ExitOutcome)
    ensures r.Quit? <==> status == Exited(0)
    ensures r.Failed? ==> r.exitStatus == 255 && r.markup == FailureMarkup(s.errors + s.errBuf + drained)
  {
    Classify(status, s.errors + s.errBuf + drained)
  }
}

=== FILE: wrappers.dfy ===
/** Optional values, used for the timer slot, regular-expression matches
    and parse results. */
module Wrappers {

  /** The conventional Some/None datatype. */
  datatype Option<+T> = None | Some(value: T)
}
